=== FILE: README.md ===
# IMDB sentiment MLOps core, modelled in Dafny

This project models the logic at the centre of an IMDB review sentiment-analysis service. It covers six parts:

- **Text cleaning** (`clean_text` in the data-preparation step). The text is lower-cased, every character outside `[a-z0-9]` and whitespace becomes a space, and whitespace runs collapse into one space before the text is stripped. `CleanText` models it step by step as written. It also gives a one-pass reference definition, `Scan`, and proves that the pipeline computes exactly that.
- **Request and response validation** (the pydantic models of the API), in `ApiModels`. A request text must be 1 to 5000 characters long and not blank, and is stored stripped. A response's confidence must lie in [0, 1]. `Whitespace` models Python's `str.isspace` set and `strip`.
- **The model loader** of the API, in `ModelLoader`. It covers loading, the metrics defaults, `get_model_info` and `predict`. The fitted classifier is a function parameter.
- **The prediction log** (`DatabaseManager` over the SQLite `predictions` table), in `PredictionLog`. The table is a state machine: a sequence of rows plus the AUTOINCREMENT counter. It models insert, clear, the newest-first queries with their `LIMIT` and date filter, and the aggregate statistics. `Timestamps` models SQLite's TEXT ordering and `DATE()`.
- **The logging helpers** the API and dashboard call, in `Logger`.
- **The drift detector** of the dashboard, in `Drift`. It covers the drift score, its severity bands and the comparison statistics.

`Wrappers` holds `Option`/`Result`. `Seqs` holds counting and filtering over sequences.

## Model

| member | source | states |
|---|---|---|
| Whitespace.IsSpace | pipeline/prepare_data.py:9-10 | the characters Python counts as whitespace for `str.isspace`, `strip()` and `\s`: the ASCII controls 9-13 and 28-31, the space, NEL, no-break space and the Unicode space, line and paragraph separators |
| Whitespace.StripLeft | api/models.py:22-24 | the result is a suffix of the input; everything dropped is whitespace; the result does not start with whitespace |
| Whitespace.StripRight | api/models.py:22-24 | the result is a prefix of the input; everything dropped is whitespace; the result does not end with whitespace |
| Whitespace.Strip | api/models.py:22-24 | the result is the infix of the input that is left once a whitespace prefix and a whitespace suffix are dropped; it neither starts nor ends with whitespace, and it is empty exactly when the input is all whitespace (`not v.strip()`) |
| Whitespace.StripOfStripped | pipeline/prepare_data.py:10 | a text with no whitespace at either end is its own `strip()` |
| CleanText.LowerChar | pipeline/prepare_data.py:8 | `A`-`Z` become `a`-`z`, the Kelvin sign becomes `k`, capital I with dot above becomes `i` and a combining dot (the only two-character result), and letters, digits and whitespace stay as they are |
| CleanText.Lower | pipeline/prepare_data.py:8 | lower-casing never shortens a text and at most doubles its length; the length stays the same exactly when the text has no capital I with dot above |
| CleanText.LowerKeepsLength | pipeline/prepare_data.py:8 | in a text without capital I with dot above, every character of the model's lower case is `LowerChar` of the input character at the same position |
| CleanText.LowerConcat | pipeline/prepare_data.py:8 | the model's lower-casing of a concatenation lower-cases each part on its own |
| CleanText.Mask | pipeline/prepare_data.py:9 | the result has the input's length and holds only letters, digits and whitespace; letters, digits and whitespace keep their places, and every other character becomes a space |
| CleanText.Collapse | pipeline/prepare_data.py:10 | never longer than the input; starts with whitespace exactly when the input does; all whitespace left is a plain space, and no two whitespace characters are adjacent |
| CleanText.CollapseRun | pipeline/prepare_data.py:10 | a whitespace run of any length collapses to exactly one space |
| CleanText.CollapseAppend | pipeline/prepare_data.py:10 | collapsing works piece by piece at any cut that does not split a whitespace run; with `CollapseRun` this pins the result on every input |
| CleanText.CollapseKeepsNonSpace | pipeline/prepare_data.py:10 | collapsing changes only whitespace: the non-whitespace characters come out the same and in the same order |
| CleanText.Clean | pipeline/prepare_data.py:6-11 | `clean_text` as the source chains its four steps; what it promises is stated by `CleanIsNormalized` (it equals the one-pass `Scan`), `CleanIsCanonical`, `CleanKeepsWordChars`, `CleanEmptyAndLength` and `CleanIdempotent` |
| CleanText.Scan | pipeline/prepare_data.py:6-11 | the reference definition of clean text: only `[a-z0-9 ]`, ends in a letter or digit, never a space before a non-word character, and not longer than the input |
| CleanText.CleanIsNormalized | pipeline/prepare_data.py:6-11 | lower, mask, collapse and strip as the source chains them give exactly the words of the lower-cased input joined by single spaces |
| CleanText.CleanIsCanonical | pipeline/prepare_data.py:9-10 | every cleaned text holds only `[a-z0-9 ]`, has no space at either end and never two spaces in a row |
| CleanText.CleanKeepsWordChars | pipeline/prepare_data.py:6-11 | the letters and digits of the lower-cased input survive cleaning in the same order, and nothing else but spaces is added |
| CleanText.CleanEmptyAndLength | pipeline/prepare_data.py:6-11 | input without letters or digits cleans to `""`; the output is never longer than the lower-cased input, nor than the input when it has no capital I with dot above |
| CleanText.CleanCanGrow | pipeline/prepare_data.py:8-10 | two capitals I with dot above clean to `"i i"`, so cleaning can lengthen a text |
| CleanText.CleanIdempotent | pipeline/prepare_data.py:6-11 | cleaning a cleaned text changes nothing |
| CleanText.SeparatorsInterchangeable | pipeline/prepare_data.py:9-10 | any character whose lower case has no letter or digit acts only as a word separator: swapping one for another never changes the result |
| CleanText.SigmaChoiceInvisible | pipeline/prepare_data.py:8-9 | capital sigma, final sigma and small sigma give the same cleaned text in any context, so the final-sigma rule of `lower()` cannot change the result |
| Drift.MeanLength | dashboard/utils/drift_detector.py:95-96 | the mean text length times the row count is the sum of the text lengths |
| Drift.PositiveRatio | dashboard/utils/drift_detector.py:100-101 | the share of rows labelled "positive": the ratio times the row count is the number of positive rows, and it lies in [0, 1] |
| Drift.DriftScore | dashboard/utils/drift_detector.py:86-111 | the score never exceeds 1, and it is 0.0 when either frame has no columns (the `KeyError` is caught) |
| Drift.DriftScoreBounds | dashboard/utils/drift_detector.py:95-107 | with non-negative text lengths the score lies in [0, 1] |
| Drift.DriftScoreZeroIff | dashboard/utils/drift_detector.py:95-107 | the score is 0 exactly when the mean text lengths and the positive ratios of the two frames agree |
| Drift.DriftStatus | dashboard/utils/drift_detector.py:114-128 | ("NO DRIFT DETECTED", green) exactly below 0.1; ("HIGH DRIFT DETECTED", red) exactly from 0.5; orange exactly in [0.1, 0.5); LOW text exactly in [0.1, 0.3); MODERATE text exactly in [0.3, 0.5) |
| Drift.ClassifyMonotone | dashboard/utils/drift_detector.py:121-128 | a higher score never gets a less severe band |
| Drift.Summarize | dashboard/utils/drift_detector.py:174-185 | a summary's count is the number of rows; its mean length times the count is the sum of the lengths; its positive ratio times the count is the number of positive rows, and lies in [0, 1] |
| Drift.ComparisonStats | dashboard/utils/drift_detector.py:165-197 | `{}` exactly when a frame has no columns; otherwise the counts are the row counts, the ratios lie in [0, 1], and the length difference is the absolute gap of the means, with its percentage taken relative to the reference mean; the sentiment difference is 100 times the absolute gap of the positive ratios and lies in [0, 100]; each side is the summary of its own frame's rows |
| Drift.DriftScoreFromComparison | dashboard/utils/drift_detector.py:105-107 | the drift score is the capped mean of the two percentage differences the comparison reports, divided by 100 |
| Timestamps.LexLeTotal | dashboard/utils/db_manager.py:87 | any two timestamps are comparable under the TEXT order |
| Timestamps.LexLeTransitive | dashboard/utils/db_manager.py:87 | the TEXT order is transitive |
| Timestamps.LexLeAntisymmetric | dashboard/utils/db_manager.py:87 | timestamps that are each at most the other are equal |
| Timestamps.DatePart | dashboard/utils/db_manager.py:173 | `DATE(ts)` is defined exactly for text starting `YYYY-MM-DD`, and is then those ten characters |
| PredictionLog.MaxId | dashboard/utils/db_manager.py:27 | the largest id present bounds every row id and is attained (0 for an empty table) |
| PredictionLog.Insert | dashboard/utils/db_manager.py:42-73 | exactly the new row is appended; its id exceeds the counter and every id present and becomes the counter; on a valid table the id is the counter plus one and the table stays valid |
| PredictionLog.Clear | dashboard/utils/db_manager.py:194-199 | no rows remain, the table is valid, and the AUTOINCREMENT counter survives |
| PredictionLog.ReplayIdsIncrease | dashboard/utils/db_manager.py:25-37 | over any history of inserts and clears the returned ids strictly increase, and each exceeds the starting counter and every id present at the start |
| PredictionLog.InsertDesc | dashboard/utils/db_manager.py:87 | inserting into a newest-first list keeps it newest-first and adds exactly that row |
| PredictionLog.SortDesc | dashboard/utils/db_manager.py:87 | `ORDER BY timestamp DESC` yields the same rows, newest first |
| PredictionLog.PrefixIsMostRecent | dashboard/utils/db_manager.py:87-89 | a prefix of a newest-first list is newest-first, and every row it leaves out is no newer than any row it keeps |
| PredictionLog.GetAllPredictions | dashboard/utils/db_manager.py:75-97 | newest first; a positive limit returns min(limit, count) rows; no limit, 0 or a negative limit returns every row; the rows left out are never newer than those returned |
| PredictionLog.GetRecentPredictions | dashboard/utils/db_manager.py:99-101 | newest first and drawn from the table; a positive `n` returns min(`n`, count) rows; `n <= 0` returns every row; the rows left out are never newer than those returned |
| PredictionLog.DefaultRecentCount | dashboard/utils/db_manager.py:99-101 | without an argument the 20 newest rows are returned, or all of them when there are fewer |
| PredictionLog.GetPredictionsByDate | dashboard/utils/db_manager.py:160-183 | newest first; with no or an empty start date, every row; otherwise each row appears exactly as often as in the table when its date is on or after the start date, and not at all otherwise |
| PredictionLog.LaterStartDateKeepsFewer | dashboard/utils/db_manager.py:172-175 | a later start date never returns a row that an earlier start date would not |
| PredictionLog.NoStartDateListsAll | dashboard/utils/db_manager.py:172-175 | with no or an empty start date the date query returns exactly the unlimited listing |
| PredictionLog.AvgOrZero | dashboard/utils/db_manager.py:155-157 | an average over no values reads as 0.0; otherwise the average times the number of values gives their sum |
| PredictionLog.GetStats | dashboard/utils/db_manager.py:103-158 | the total is the row count; an empty table gives the all-zero statistics; the positive and negative counts are the numbers of rows with those labels and sum to at most the total; the ratios are count over total, non-negative, and sum to at most 1; without any response time the average response time is 0.0; the three averages are exactly those of `AveragesOf` over the rows |
| PredictionLog.AveragesOf | dashboard/utils/db_manager.py:138-157 | over no rows every average is 0.0; the average confidence times the row count is the sum of all confidences; the average text length times the row count is the sum of all text lengths; the average response time times the number of rows that have one is the sum of those times (rows without one are skipped, not read as 0), and it is 0.0 when no row has one |
| PredictionLog.OtherLabelsCountOnlyInTotal | dashboard/utils/db_manager.py:131-135 | rows labelled neither "positive" nor "negative" are counted in the total and nowhere else |
| PredictionLog.FreshTable | dashboard/utils/db_manager.py:20-40 | the newly created table is valid, reports the all-zero statistics and a count of 0, and gives id 1 to its first insert |
| PredictionLog.GetPredictionCount | dashboard/utils/db_manager.py:185-192 | the count equals the total the statistics report |
| PredictionLog.CountAfterInsertAndClear | dashboard/utils/db_manager.py:185-199 | an insert adds one to the count; a clear brings it to zero |
| PredictionLog.StatsAfterInsert | dashboard/utils/db_manager.py:103-158 | an insert adds one to the total and one to the count of its own label; a row without response time leaves that average unchanged |
| Logger.LogPrediction | dashboard/utils/logger.py:15-47 | appends exactly one row and leaves the others alone; the row carries the given fields, `len(text)` as its length and 0.0 for a missing probability; the returned id is the row's id and exceeds every earlier id |
| Logger.GetPredictionStats | dashboard/utils/logger.py:50-53 | exactly the manager's statistics; so the total is the row count, the label counts stay within it, and an empty log gives the all-zero statistics |
| Logger.GetRecentPredictions | dashboard/utils/logger.py:56-59 | exactly the manager's recent rows; so newest first, at most `n` rows for positive `n`, drawn from the log, never skipping a newer row for an older one |
| Logger.GetAllPredictions | dashboard/utils/logger.py:62-65 | every logged row exactly once, newest first |
| Logger.LoggedPredictionInStats | dashboard/utils/logger.py:15-53 | after logging a prediction the statistics count one more prediction, under its own label |
| ApiModels.ValidateRequest | api/models.py:10-24 | accepted exactly when the text is 1 to 5000 characters long and not all whitespace; too short, too long and blank texts each give their own error; the stored text is the stripped text, non-empty and without whitespace at either end |
| ApiModels.RevalidateAccepted | api/models.py:19-24 | validating an accepted request's text again gives the same request |
| ApiModels.ValidateResponse | api/models.py:27-46 | accepted exactly when the confidence lies in [0, 1], keeping the fields as given; otherwise a confidence error |
| ModelLoader.LoadModelInfo | api/utils.py:49-62 | the parsed metrics file when one exists, otherwise exactly the four metrics, each 0.0 |
| ModelLoader.LoadModel | api/utils.py:22-47 | succeeds exactly when both files exist; a missing model file is reported before a missing vectorizer file; on success the loader holds both and the metrics info |
| ModelLoader.GetModelInfo | api/utils.py:64-84 | refuses exactly when not loaded; otherwise reports the class names, `max_features` when present and "N/A" when not, each metric and the date as stored when present, 0.0 for a missing metric, None for a missing date, and version "v1.0.0" |
| ModelLoader.FreshLoaderRefuses | api/utils.py:16-20 | a loader that was never loaded refuses both model info and prediction |
| ModelLoader.Predict | api/utils.py:86-122 | refuses exactly when not loaded; otherwise the sentiment is the predicted label; the confidence is the positive-class probability for "positive" and the negative-class probability for any other label; both probabilities are reported under their class names |
| ModelLoader.LoadedLoaderServes | api/utils.py:22-122 | after a successful load, prediction and model info no longer refuse; without a metrics file every reported metric is 0.0 and the date None |
| ModelLoader.PredictionPassesResponseCheck | api/utils.py:109-122 | when the classifier's probabilities lie in [0, 1], the prediction always passes the response model's confidence bound |

## Left out

- Python's `str.lower()` is modelled only as far as cleaning can observe it. `LowerChar` maps `A`-`Z`, the Kelvin sign and capital I with dot above exactly. It keeps every other character unchanged. Python lowers some of those to other non-ASCII characters, but none of them to whitespace or to `[a-z0-9]`, so the cleaned text is the same either way. Python's `lower()` is also not purely per character: under the final-sigma rule, capital sigma (U+03A3) becomes final sigma (U+03C2) at the end of a word and small sigma (U+03C3) elsewhere. The model keeps capital sigma as it is. All three are outside `[a-z0-9]` and are not whitespace, so the mask step turns each into a space and the cleaned text is unaffected (`SigmaChoiceInvisible`).
- `CleanText.LowerConcat`: holds of the model's per-character `Lower`, not of Python's `lower()`. Under the final-sigma rule Python lowers `"\U{391}\U{3A3}"` to `"\U{3B1}\U{3C2}"`, while lowering the two parts separately gives `"\U{3B1}\U{3C3}"`. The cleaned text is unaffected, since both sigmas become a space in the mask step.
- `CleanText.LowerKeepsLength`: the position-by-position statement holds of the model's per-character `Lower`, not of Python's `lower()`. A word-final capital sigma becomes final sigma rather than the small sigma of `"\U{3A3}".lower()`. The cleaned text is unaffected for the same reason.
- `CleanText.Lower`: the position-by-position statement (`LowerKeepsLength`) covers only texts without capital I with dot above. With that character, later positions shift by one; `LowerConcat` states how the result is built from the characters instead.
- The rest of the data-preparation script is not modelled: reading the CSV, the train/test split and writing files. Neither are the training, evaluation, experiment and Prefect scripts, the Streamlit pages or the FastAPI routes. These are I/O around the core.
- Floating point is modelled as exact reals. NaN and infinity are excluded by the precondition `Drift.Defined`. Pandas yields them for a frame with columns but no rows, and for a zero reference mean text length.
- `Drift.ComparisonStats`: the two standard deviations are left out. They need a square root, and nothing else in the module depends on them.
- Loading the reference and production data, and the Evidently HTML report, are not modelled. They read files and call a third-party library.
- `Drift.DriftScore`: only the no-columns error path is modelled. That is the frame the data loaders return on failure or when the log is empty. Other exceptions are not.
- `PredictionLog.GetPredictionsByDate` requires a start date without a single quote. The source pastes the date into the SQL text, so a quote would change the query itself. The injection is not modelled.
- `Timestamps.DatePart`: SQLite's `DATE()` is modelled as the `YYYY-MM-DD` prefix of the stored text, whatever text follows it. SQLite also validates the calendar (month 13, day 32), returns NULL for a malformed time part and shifts the date for a timezone suffix; none of that is modelled. Timestamps come from naive `datetime.isoformat()`, which always gives a valid date and time with no timezone, so the prefix is what `DATE()` returns for them.
- `ORDER BY timestamp DESC` leaves the order of equal timestamps open. The model fixes one order, and its contracts state only what every order shares.
- `PredictionLog.Insert`: the 64-bit rowid limit and SQLITE_FULL are not modelled. Ids are unbounded naturals.
- The timestamp is an argument rather than a reading of the clock. The pandas conversion of the timestamp column to datetimes is not modelled.
- Connections, commits, and the process-wide `get_db_manager()` singleton are not modelled. The log is an explicit value that each operation takes and returns.
- The averages of `get_stats` are exact real quotients, not SQLite's floating-point `AVG`.
- The fitted model and vectorizer are modelled by class name and `max_features` attribute only. `joblib` loading, TF-IDF and the classifier itself are one opaque function parameter of `ModelLoader.Predict`.
- `validate_model_files` and the `HealthResponse`, `ModelInfoResponse` and `ErrorResponse` models are not modelled. They only check files or declare fields, with no validation logic.

=== FILE: api_models.dfy ===
/** Request and response validation of the prediction API (pydantic models). */
module ApiModels {
  import opened Wrappers
  import opened Whitespace

  const MinTextLength := 1
  const MaxTextLength := 5000

  /** A validated request; `text` is the stripped text. */
  datatype PredictionRequest = PredictionRequest(text: string)

  datatype ValidationError = TextTooShort | TextTooLong | TextBlank | ConfidenceOutOfRange

  /** What every accepted request text satisfies. */
  predicate WellFormedText(t: string) {
    && MinTextLength <= |t| <= MaxTextLength
    && !IsSpace(t[0]) && !IsSpace(t[|t| - 1])
  }

  /** Building `PredictionRequest(text=...)`: the field's length bounds are checked first,
      then `validate_text` rejects blank text and keeps the stripped text. */
  function ValidateRequest(text: string): (r: Result<PredictionRequest, ValidationError>)
    ensures r.Ok? <==> MinTextLength <= |text| <= MaxTextLength && !AllSpace(text)
    ensures |text| < MinTextLength ==> r == Err(TextTooShort)
    ensures |text| > MaxTextLength ==> r == Err(TextTooLong)
    ensures MinTextLength <= |text| <= MaxTextLength && AllSpace(text) ==> r == Err(TextBlank)
    ensures r.Ok? ==> r.value.text == Strip(text) && WellFormedText(r.value.text)
  {
    if |text| < MinTextLength then Err(TextTooShort)
    else if |text| > MaxTextLength then Err(TextTooLong)
    else if |Strip(text)| == 0 then Err(TextBlank)
    else Ok(PredictionRequest(Strip(text)))
  }

  /** Validation is idempotent: an accepted text validates again to the same request. */
  lemma RevalidateAccepted(text: string)
    requires ValidateRequest(text).Ok?
    ensures ValidateRequest(ValidateRequest(text).value.text) == ValidateRequest(text)
  {
    var t := Strip(text);
    StripOfStripped(t);
    assert !IsSpace(t[0]);
  }

  datatype PredictionResponse = PredictionResponse(
    sentiment: string,
    confidence: real,
    probabilities: map<string, real>,
    textLength: int,
    timestamp: string)

  /** Building `PredictionResponse(...)`: only a confidence in [0, 1] is accepted, and the
      fields are kept as given. */
  function ValidateResponse(sentiment: string, confidence: real, probabilities: map<string, real>,
                            textLength: int, timestamp: string): (r: Result<PredictionResponse, ValidationError>)
    ensures r.Ok? <==> 0.0 <= confidence <= 1.0
    ensures r.Ok? ==> r.value == PredictionResponse(sentiment, confidence, probabilities, textLength, timestamp)
    ensures r.Err? ==> r.error == ConfidenceOutOfRange
  {
    if 0.0 <= confidence <= 1.0 then Ok(PredictionResponse(sentiment, confidence, probabilities, textLength, timestamp))
    else Err(ConfidenceOutOfRange)
  }
}

=== FILE: clean_text.dfy ===
/** `clean_text` of the data-preparation step: lower-case, turn every character outside
    `[a-z0-9\s]` into a space, collapse whitespace runs into one space and strip. */
module CleanText {
  import opened Whitespace

  /** A character the cleaned text keeps: `[a-z0-9]`. */
  predicate IsWordChar(c: char) {
    ('a' <= c <= 'z') || ('0' <= c <= '9')
  }

  /** What `str.lower()` makes of one character, as far as the later steps can tell:
      `A`-`Z` become `a`-`z`, the Kelvin sign becomes `k`, and capital I with dot above
      becomes `i` followed by a combining dot. These are the only characters whose lower
      case holds a letter or digit of `[a-z0-9]` without being one. Every other character is
      kept: Python lowers some of them to other non-ASCII characters, but whitespace stays
      whitespace and nothing else becomes whitespace, so the mask step treats the kept and
      the lowered character alike. The one context-dependent rule of `str.lower()`, the
      final sigma (capital sigma becomes final sigma at the end of a word and small sigma
      elsewhere), is invisible for the same reason: all three sigmas are masked to a space. */
  function LowerChar(c: char): (r: string)
    ensures 1 <= |r| <= 2
    ensures |r| == 2 <==> c == '\U{130}'
    ensures 'A' <= c <= 'Z' ==> r == [(c as int + 32) as char]
    ensures c == '\U{212A}' ==> r == "k"
    ensures c == '\U{130}' ==> r == "i\U{307}"
    ensures IsWordChar(c) || IsSpace(c) ==> r == [c]
  {
    if 'A' <= c <= 'Z' then [(c as int + 32) as char]
    else if c == '\U{212A}' then "k"
    else if c == '\U{130}' then "i\U{307}"
    else [c]
  }

  /** `text.lower()` */
  function Lower(s: string): (r: string)
    ensures |s| <= |r| <= 2 * |s|
    ensures |r| == |s| <==> '\U{130}' !in s
  {
    if |s| == 0 then [] else LowerChar(s[0]) + Lower(s[1..])
  }

  /** `re.sub(r"[^a-z0-9\s]", " ", text)`: letters, digits and whitespace stay where they
      are, and every other character becomes a space. */
  function Mask(s: string): (r: string)
    ensures |r| == |s|
    ensures IsMasked(r)
    ensures forall i :: 0 <= i < |s| ==>
      r[i] == (if IsWordChar(s[i]) || IsSpace(s[i]) then s[i] else ' ')
  {
    seq(|s|, i requires 0 <= i < |s| => if IsWordChar(s[i]) || IsSpace(s[i]) then s[i] else ' ')
  }

  /** `re.sub(r"\s+", " ", text)`: every maximal run of whitespace becomes one space
      (the last character of each run produces it). */
  function Collapse(s: string): (r: string)
    ensures |r| <= |s|
    ensures |s| > 0 ==> |r| > 0 && (IsSpace(r[0]) <==> IsSpace(s[0]))
    ensures forall i :: 0 <= i < |r| && IsSpace(r[i]) ==> r[i] == ' '
    ensures forall i, j :: 0 <= i < |r| && 0 <= j < |r| && j == i + 1 && IsSpace(r[i]) ==> !IsSpace(r[j])
  {
    if |s| == 0 then []
    else if IsSpace(s[0]) then
      (if |s| > 1 && IsSpace(s[1]) then Collapse(s[1..]) else [' '] + Collapse(s[1..]))
    else [s[0]] + Collapse(s[1..])
  }

  /** `clean_text(text)`, step by step as the source writes it. */
  function Clean(s: string): string
  {
    Strip(Collapse(Mask(Lower(s))))
  }

  // ---------------------------------------------------------------------------
  // Reference definition: one left-to-right pass in which letters and digits are
  // emitted and every other character only separates them.
  // ---------------------------------------------------------------------------

  /** Scans `t`; `started` says a word character was already emitted, `gap` that a
      separator was seen since the last one. A space is emitted only between two
      word characters that had at least one separator between them. */
  function Scan(t: string, started: bool, gap: bool): (r: string)
    ensures forall i :: 0 <= i < |r| ==> IsWordChar(r[i]) || r[i] == ' '
    ensures |r| > 0 ==> IsWordChar(r[|r| - 1])
    ensures |r| > 0 && r[0] == ' ' ==> started
    ensures forall i, j :: 0 <= i < |r| && 0 <= j < |r| && j == i + 1 && r[i] == ' ' ==> IsWordChar(r[j])
    ensures |r| <= |t| + (if started && gap then 1 else 0)
  {
    if |t| == 0 then []
    else if IsWordChar(t[0]) then
      (if started && gap then [' ', t[0]] else [t[0]]) + Scan(t[1..], true, false)
    else Scan(t[1..], started, true)
  }

  /** The words of the lower-cased input joined by single spaces. */
  function Normalized(s: string): string {
    Scan(Lower(s), false, false)
  }

  predicate OnlyWordCharsAndSpaces(r: string) {
    forall i :: 0 <= i < |r| ==> IsWordChar(r[i]) || r[i] == ' '
  }

  predicate NoDoubleSpace(r: string) {
    forall i, j :: 0 <= i < |r| && 0 <= j < |r| && j == i + 1 && r[i] == ' ' ==> r[j] != ' '
  }

  /** The shape of every cleaned text: only `[a-z0-9 ]`, no leading or trailing space,
      no two spaces in a row. */
  predicate Canonical(r: string) {
    && OnlyWordCharsAndSpaces(r)
    && (|r| > 0 ==> r[0] != ' ' && r[|r| - 1] != ' ')
    && NoDoubleSpace(r)
  }

  /** The letters and digits of `s`, in order. */
  function WordChars(s: string): (r: string)
    ensures |r| <= |s|
    ensures forall i :: 0 <= i < |r| ==> IsWordChar(r[i])
  {
    if |s| == 0 then []
    else (if IsWordChar(s[0]) then [s[0]] else []) + WordChars(s[1..])
  }

  /** A run of whitespace, however long, becomes exactly one space. */
  lemma {:induction false} CollapseRun(w: string)
    requires |w| > 0 && AllSpace(w)
    ensures Collapse(w) == " "
  {
    if |w| > 1 {
      assert AllSpace(w[1..]) by {
        forall i | 0 <= i < |w| - 1 ensures IsSpace(w[1..][i]) {
          assert w[1..][i] == w[i + 1];
        }
      }
      CollapseRun(w[1..]);
    }
  }

  /** Collapsing works piece by piece wherever the cut does not split a whitespace run. */
  lemma {:induction false} CollapseAppend(x: string, y: string)
    requires |x| == 0 || |y| == 0 || !IsSpace(x[|x| - 1]) || !IsSpace(y[0])
    ensures Collapse(x + y) == Collapse(x) + Collapse(y)
  {
    if |x| == 0 {
      assert x + y == y;
    } else {
      if |x| > 1 {
        assert x[1..][|x| - 2] == x[|x| - 1];
      }
      CollapseAppend(x[1..], y);
      CollapseAppendStep(x, y);
    }
  }

  /** The inductive step of `CollapseAppend`: the first step of collapsing `x + y` is that
      of `x`, and the rest splits by hypothesis. */
  lemma CollapseAppendStep(x: string, y: string)
    requires |x| > 0
    requires |y| == 0 || !IsSpace(x[|x| - 1]) || !IsSpace(y[0])
    requires Collapse(x[1..] + y) == Collapse(x[1..]) + Collapse(y)
    ensures Collapse(x + y) == Collapse(x) + Collapse(y)
  {
    var h := CollapseHead(x);
    var rest, tail := Collapse(x[1..]), Collapse(y);
    CollapseStepAppend(x, y);
    CollapseStep(x);
    ConcatAssoc(h, rest, tail);
  }

  lemma ConcatAssoc(a: string, b: string, c: string)
    ensures a + (b + c) == (a + b) + c
  {
  }

  /** What the first character of a non-empty `s` contributes to `Collapse(s)`. */
  function CollapseHead(s: string): string
    requires |s| > 0
  {
    if !IsSpace(s[0]) then [s[0]]
    else if |s| > 1 && IsSpace(s[1]) then []
    else [' ']
  }

  /** The first step of collapsing `x + y` is the first step of collapsing `x` when the
      cut does not split a whitespace run. */
  lemma CollapseStepAppend(x: string, y: string)
    requires |x| > 0
    requires |y| == 0 || !IsSpace(x[|x| - 1]) || !IsSpace(y[0])
    ensures Collapse(x + y) == CollapseHead(x) + Collapse(x[1..] + y)
  {
    HeadOfAppend(x, y);
    CollapseStep(x + y);
  }

  lemma HeadOfAppend(x: string, y: string)
    requires |x| > 0
    requires |y| == 0 || !IsSpace(x[|x| - 1]) || !IsSpace(y[0])
    ensures (x + y)[1..] == x[1..] + y
    ensures CollapseHead(x + y) == CollapseHead(x)
  {
    if |x| > 1 {
      assert (x + y)[1] == x[1];
    }
  }

  lemma CollapseStep(s: string)
    requires |s| > 0
    ensures Collapse(s) == CollapseHead(s) + Collapse(s[1..])
  {
  }

  /** The characters of `s` that are not whitespace, in order. */
  function NonSpace(s: string): (r: string)
    ensures |r| <= |s|
    ensures forall i :: 0 <= i < |r| ==> !IsSpace(r[i])
  {
    if |s| == 0 then []
    else (if IsSpace(s[0]) then [] else [s[0]]) + NonSpace(s[1..])
  }

  /** Collapsing whitespace runs touches only whitespace: the other characters come out
      unchanged and in the same order. */
  lemma {:induction false} CollapseKeepsNonSpace(s: string)
    ensures NonSpace(Collapse(s)) == NonSpace(s)
  {
    if |s| > 0 {
      CollapseKeepsNonSpace(s[1..]);
      var t := Collapse(s[1..]);
      if !IsSpace(s[0]) {
        assert ([s[0]] + t)[1..] == t;
      } else if !(|s| > 1 && IsSpace(s[1])) {
        assert ([' '] + t)[1..] == t;
      }
    }
  }

  // ---------------------------------------------------------------------------
  // The pipeline computes the reference definition.
  // ---------------------------------------------------------------------------

  /** Characters of masked text are word characters or whitespace. */
  predicate IsMasked(t: string) {
    forall i :: 0 <= i < |t| ==> IsWordChar(t[i]) || IsSpace(t[i])
  }

  lemma WordCharNotSpace(c: char)
    requires IsWordChar(c)
    ensures !IsSpace(c)
  {
  }

  /** Dropping trailing whitespace after a prefix that ends in a non-space keeps the prefix. */
  lemma {:induction false} StripRightAppend(x: string, y: string)
    requires |x| > 0 && !IsSpace(x[|x| - 1])
    ensures StripRight(x + y) == x + StripRight(y)
  {
    if |y| == 0 {
      assert x + y == x;
    } else if IsSpace(y[|y| - 1]) {
      assert (x + y)[..|x + y| - 1] == x + y[..|y| - 1];
      StripRightAppend(x, y[..|y| - 1]);
    } else {
    }
  }

  /** Collapsing text that starts with a word character starts with that character. */
  lemma CollapseWordHead(t: string)
    requires |t| > 0 && IsWordChar(t[0])
    ensures Collapse(t) == [t[0]] + Collapse(t[1..])
    ensures StripLeft(Collapse(t)) == Collapse(t)
  {
    WordCharNotSpace(t[0]);
  }

  /** Stripping leading whitespace commutes with collapsing runs. */
  lemma {:induction false} StripLeftCollapse(t: string)
    requires IsMasked(t)
    ensures StripLeft(Collapse(t)) == Collapse(StripLeft(t))
  {
    if |t| == 0 {
    } else if !IsSpace(t[0]) {
      CollapseWordHead(t);
    } else if |t| == 1 {
      assert Collapse(t) == [' '];
      assert StripLeft([' ']) == StripLeft([]);
    } else if IsSpace(t[1]) {
      assert Collapse(t) == Collapse(t[1..]);
      assert IsMasked(t[1..]);
      StripLeftCollapse(t[1..]);
    } else {
      var rest := t[1..];
      assert IsWordChar(rest[0]);
      CollapseWordHead(rest);
      assert Collapse(t) == [' '] + Collapse(rest);
      assert StripLeft([' '] + Collapse(rest)) == StripLeft(Collapse(rest)) by {
        assert ([' '] + Collapse(rest))[1..] == Collapse(rest);
      }
      WordCharNotSpace(rest[0]);
      assert StripLeft(rest) == rest;
    }
  }

  /** Collapsing text that starts with a whitespace character. */
  lemma CollapseSpaceHead(t: string)
    requires |t| > 0 && IsSpace(t[0])
    ensures |t| > 1 && IsSpace(t[1]) ==> Collapse(t) == Collapse(t[1..])
    ensures !(|t| > 1 && IsSpace(t[1])) ==> Collapse(t) == [' '] + Collapse(t[1..])
  {
  }

  lemma StepWord(t: string)
    requires |t| > 0 && IsWordChar(t[0])
    requires StripRight(Collapse(t[1..])) == Scan(t[1..], true, false)
    ensures StripRight(Collapse(t)) == Scan(t, true, false)
  {
    CollapseWordHead(t);
    WordCharNotSpace(t[0]);
    StripRightAppend([t[0]], Collapse(t[1..]));
  }

  lemma StepLastSpace(t: string)
    requires |t| == 1 && IsSpace(t[0])
    ensures StripRight(Collapse(t)) == Scan(t, true, false)
  {
    CollapseSpaceHead(t);
    assert Collapse(t) == [' '];
  }

  lemma StepSpaceSpace(t: string)
    requires |t| > 1 && IsSpace(t[0]) && IsSpace(t[1])
    requires StripRight(Collapse(t[1..])) == Scan(t[1..], true, false)
    ensures StripRight(Collapse(t)) == Scan(t, true, false)
  {
    CollapseSpaceHead(t);
    ScanSkipsSpace(t[1..]);
  }

  lemma ScanSpaceWord(t: string)
    requires |t| > 1 && !IsWordChar(t[0]) && IsWordChar(t[1])
    ensures Scan(t, true, false) == [' ', t[1]] + Scan(t[2..], true, false)
  {
    assert t[1..][1..] == t[2..];
  }

  lemma CollapseSpaceWord(t: string)
    requires |t| > 1 && IsSpace(t[0]) && IsWordChar(t[1])
    ensures Collapse(t) == [' ', t[1]] + Collapse(t[2..])
  {
    WordCharNotSpace(t[1]);
    CollapseSpaceHead(t);
    CollapseWordHead(t[1..]);
    assert t[1..][1..] == t[2..];
    assert [' '] + ([t[1]] + Collapse(t[2..])) == [' ', t[1]] + Collapse(t[2..]);
  }

  lemma StepSpaceWord(t: string)
    requires |t| > 1 && IsSpace(t[0]) && IsWordChar(t[1])
    requires StripRight(Collapse(t[2..])) == Scan(t[2..], true, false)
    ensures StripRight(Collapse(t)) == Scan(t, true, false)
  {
    WordCharNotSpace(t[1]);
    ScanSpaceWord(t);
    CollapseSpaceWord(t);
    StripRightAppend([' ', t[1]], Collapse(t[2..]));
  }

  /** Trailing whitespace dropped from the collapsed text leaves the scan's output. */
  lemma {:induction false} StripRightCollapseScan(t: string)
    requires IsMasked(t)
    ensures StripRight(Collapse(t)) == Scan(t, true, false)
  {
    if |t| == 0 {
    } else if IsWordChar(t[0]) {
      StripRightCollapseScan(t[1..]);
      StepWord(t);
    } else if |t| == 1 {
      StepLastSpace(t);
    } else if IsSpace(t[1]) {
      StripRightCollapseScan(t[1..]);
      StepSpaceSpace(t);
    } else {
      StripRightCollapseScan(t[2..]);
      StepSpaceWord(t);
    }
  }

  /** A separator right after another separator changes nothing. */
  lemma ScanSkipsSpace(t: string)
    requires |t| > 0 && !IsWordChar(t[0])
    ensures Scan(t, true, false) == Scan(t[1..], true, true)
  {
  }

  /** While nothing has been emitted, the separator flag is irrelevant. */
  lemma {:induction false} ScanUnstartedGap(t: string, gap: bool)
    ensures Scan(t, false, gap) == Scan(t, false, false)
  {
    if |t| > 0 && !IsWordChar(t[0]) {
      ScanUnstartedGap(t[1..], true);
      ScanUnstartedGap(t[1..], false);
    }
  }

  /** Leading whitespace is skipped by the unstarted scan. */
  lemma {:induction false} ScanStripLeft(t: string)
    ensures Scan(t, false, false) == Scan(StripLeft(t), false, false)
  {
    if |t| > 0 && IsSpace(t[0]) {
      assert !IsWordChar(t[0]);
      ScanUnstartedGap(t[1..], true);
      ScanStripLeft(t[1..]);
    }
  }

  /** Masking punctuation into spaces does not change which characters separate words. */
  lemma {:induction false} ScanMask(t: string, started: bool, gap: bool)
    ensures Scan(Mask(t), started, gap) == Scan(t, started, gap)
  {
    if |t| > 0 {
      assert Mask(t)[1..] == Mask(t[1..]);
      ScanMask(t[1..], true, false);
      ScanMask(t[1..], started, true);
    }
  }

  /** `clean_text` equals the reference definition: the letters and digits of the
      lower-cased input, each run of other characters turned into one separating space,
      none at either end. */
  lemma CleanIsNormalized(s: string)
    ensures Clean(s) == Normalized(s)
  {
    var m := Mask(Lower(s));
    assert IsMasked(m);
    var l := StripLeft(m);
    assert IsMasked(l) by {
      assert l == m[|m| - |l|..];
    }
    StripLeftCollapse(m);
    StripRightCollapseScan(l);
    if |l| > 0 {
      assert IsWordChar(l[0]);
    }
    assert Scan(l, true, false) == Scan(l, false, false);
    ScanStripLeft(m);
    ScanMask(Lower(s), false, false);
  }

  // ---------------------------------------------------------------------------
  // Properties of the cleaned text.
  // ---------------------------------------------------------------------------

  /** Only `[a-z0-9 ]`, no leading/trailing space, never two spaces in a row. */
  lemma CleanIsCanonical(s: string)
    ensures Canonical(Clean(s))
  {
    CleanIsNormalized(s);
    ScanIsCanonical(Lower(s));
  }

  lemma ScanIsCanonical(t: string)
    ensures Canonical(Scan(t, false, false))
  {
    var r := Scan(t, false, false);
    assert OnlyWordCharsAndSpaces(r);
    assert NoDoubleSpace(r);
  }

  /** The scan keeps exactly the word characters, in order. */
  lemma {:induction false} ScanKeepsWordChars(t: string, started: bool, gap: bool)
    ensures WordChars(Scan(t, started, gap)) == WordChars(t)
  {
    if |t| > 0 {
      if IsWordChar(t[0]) {
        ScanKeepsWordChars(t[1..], true, false);
        var prefix := if started && gap then [' ', t[0]] else [t[0]];
        WordCharsAppend(prefix, Scan(t[1..], true, false));
        assert WordChars(prefix) == [t[0]] by {
          if started && gap {
            assert prefix[1..] == [t[0]];
            assert [t[0]][1..] == [];
          } else {
            assert prefix[1..] == [];
          }
        }
      } else {
        ScanKeepsWordChars(t[1..], started, true);
      }
    }
  }

  lemma {:induction false} WordCharsAppend(a: string, b: string)
    ensures WordChars(a + b) == WordChars(a) + WordChars(b)
  {
    if |a| > 0 {
      assert (a + b)[1..] == a[1..] + b;
      WordCharsAppend(a[1..], b);
    } else {
      assert a + b == b;
    }
  }

  /** The letters and digits of the lower-cased input appear in the output in the same
      order, and nothing else but single spaces does. */
  lemma CleanKeepsWordChars(s: string)
    ensures WordChars(Clean(s)) == WordChars(Lower(s))
  {
    CleanIsNormalized(s);
    ScanKeepsWordChars(Lower(s), false, false);
  }

  /** Input without letters or digits cleans to the empty string; the output is never
      longer than the lower-cased input, which is as long as the input unless the input
      holds a capital I with dot above. */
  lemma CleanEmptyAndLength(s: string)
    ensures WordChars(Lower(s)) == [] ==> Clean(s) == []
    ensures |Clean(s)| <= |Lower(s)|
    ensures '\U{130}' !in s ==> |Clean(s)| <= |s|
  {
    CleanIsNormalized(s);
    CleanKeepsWordChars(s);
    var r := Clean(s);
    if |r| > 0 {
      WordCharsOfWordEnd(r);
    }
    if '\U{130}' !in s {
      LowerKeepsLength(s);
    }
  }

  lemma {:induction false} LowerKeepsLength(s: string)
    requires '\U{130}' !in s
    ensures |Lower(s)| == |s|
    ensures forall i :: 0 <= i < |s| ==> [Lower(s)[i]] == LowerChar(s[i])
  {
    if |s| > 0 {
      assert '\U{130}' !in s[1..];
      LowerKeepsLength(s[1..]);
      forall i | 1 <= i < |s|
        ensures [Lower(s)[i]] == LowerChar(s[i])
      {
        assert Lower(s)[i] == Lower(s[1..])[i - 1];
        assert s[i] == s[1..][i - 1];
      }
    }
  }

  /** Lower-casing can lengthen the text, and so can cleaning: two capitals I with dot above
      clean to two letters with a space between them. */
  lemma CleanCanGrow()
    ensures Clean("\U{130}\U{130}") == "i i"
  {
    var s := "\U{130}\U{130}";
    var t := "i\U{307}i\U{307}";
    LowerOfDottedCapitals(s);
    CleanIsNormalized(s);
    ScanOfDotted(t);
  }

  lemma LowerOfDottedCapitals(s: string)
    requires s == "\U{130}\U{130}"
    ensures Lower(s) == "i\U{307}i\U{307}"
  {
    assert LowerChar(s[0]) == "i\U{307}";
    assert s[1..][1..] == [];
    assert Lower(s[1..]) == "i\U{307}";
  }

  lemma ScanOfDotted(t: string)
    requires t == "i\U{307}i\U{307}"
    ensures Scan(t, false, false) == "i i"
  {
    assert t[3..][1..] == [];
    assert Scan(t[3..], true, false) == [];
    assert t[2..][1..] == t[3..];
    assert Scan(t[2..], true, true) == " i";
    assert t[1..][1..] == t[2..];
    assert Scan(t[1..], true, false) == " i";
  }

  lemma {:induction false} WordCharsOfWordEnd(r: string)
    requires |r| > 0 && IsWordChar(r[|r| - 1])
    ensures WordChars(r) != []
  {
    if |r| > 1 {
      if !IsWordChar(r[0]) {
        WordCharsOfWordEnd(r[1..]);
      }
    }
  }

  /** Canonical text after a space is canonical again once the word character behind the
      space is consumed. */
  lemma CanonicalTail(r: string)
    requires OnlyWordCharsAndSpaces(r) && NoDoubleSpace(r)
    requires |r| > 0 && r[|r| - 1] != ' '
    ensures OnlyWordCharsAndSpaces(r[1..]) && NoDoubleSpace(r[1..])
    ensures r[0] == ' ' ==> IsWordChar(r[1]) && OnlyWordCharsAndSpaces(r[2..]) && NoDoubleSpace(r[2..])
  {
    if r[0] == ' ' {
      assert r[1] != ' ';
    }
  }

  /** Scanning already-canonical text reproduces it. */
  lemma {:induction false} ScanCanonical(r: string, started: bool)
    requires OnlyWordCharsAndSpaces(r) && NoDoubleSpace(r)
    requires |r| > 0 ==> r[|r| - 1] != ' '
    requires |r| > 0 && r[0] == ' ' ==> started
    ensures Scan(r, started, false) == r
  {
    if |r| > 0 {
      CanonicalTail(r);
      if IsWordChar(r[0]) {
        ScanCanonical(r[1..], true);
        assert r == [r[0]] + r[1..];
      } else {
        ScanCanonical(r[2..], true);
        assert r[1..][1..] == r[2..];
        assert r == [' ', r[1]] + r[2..];
      }
    }
  }

  /** Lower-casing leaves canonical text alone. */
  lemma {:induction false} LowerOfCanonical(r: string)
    requires OnlyWordCharsAndSpaces(r)
    ensures Lower(r) == r
  {
    if |r| > 0 {
      assert OnlyWordCharsAndSpaces(r[1..]);
      LowerOfCanonical(r[1..]);
      assert r == [r[0]] + r[1..];
    }
  }

  /** `clean_text(clean_text(s)) == clean_text(s)`. */
  lemma CleanIdempotent(s: string)
    ensures Clean(Clean(s)) == Clean(s)
  {
    var r := Clean(s);
    CleanIsCanonical(s);
    LowerOfCanonical(r);
    CleanIsNormalized(r);
    ScanCanonical(r, false);
  }

  /** State of the scan after consuming `a`. */
  function ScanState(a: string, started: bool, gap: bool): (bool, bool) {
    if |a| == 0 then (started, gap)
    else if IsWordChar(a[0]) then ScanState(a[1..], true, false)
    else ScanState(a[1..], started, true)
  }

  lemma {:induction false} ScanAppend(a: string, b: string, started: bool, gap: bool)
    ensures Scan(a + b, started, gap)
         == Scan(a, started, gap) + Scan(b, ScanState(a, started, gap).0, ScanState(a, started, gap).1)
  {
    if |a| == 0 {
      assert a + b == b;
    } else {
      assert (a + b)[1..] == a[1..] + b;
      if IsWordChar(a[0]) {
        ScanAppend(a[1..], b, true, false);
      } else {
        ScanAppend(a[1..], b, started, true);
      }
    }
  }

  /** A character whose lower case holds no letter or digit: it can only separate words. */
  predicate IsSeparator(c: char) {
    WordChars(LowerChar(c)) == []
  }

  lemma {:induction false} WordCharsEmpty(t: string)
    requires WordChars(t) == []
    ensures forall i :: 0 <= i < |t| ==> !IsWordChar(t[i])
  {
    if |t| > 0 {
      assert !IsWordChar(t[0]);
      WordCharsEmpty(t[1..]);
      assert forall i :: 1 <= i < |t| ==> t[i] == t[1..][i - 1];
    }
  }

  /** A non-empty run of separators emits nothing and leaves a gap behind. */
  lemma {:induction false} ScanSeparators(t: string, started: bool, gap: bool)
    requires |t| > 0 && forall i :: 0 <= i < |t| ==> !IsWordChar(t[i])
    ensures Scan(t, started, gap) == []
    ensures ScanState(t, started, gap) == (started, true)
  {
    if |t| > 1 {
      ScanSeparators(t[1..], started, true);
    }
  }

  /** A separator between `x` and `y` contributes only its separating role. */
  lemma ScanThroughSeparator(x: string, sep: string, y: string)
    requires |sep| > 0 && WordChars(sep) == []
    ensures Scan(x + (sep + y), false, false)
         == Scan(x, false, false) + Scan(y, ScanState(x, false, false).0, true)
  {
    var st := ScanState(x, false, false);
    WordCharsEmpty(sep);
    ScanSeparators(sep, st.0, st.1);
    ScanAppend(sep, y, st.0, st.1);
    assert Scan(sep + y, st.0, st.1) == Scan(y, st.0, true);
    ScanAppend(x, sep + y, false, false);
  }

  lemma {:induction false} LowerConcat(a: string, b: string)
    ensures Lower(a + b) == Lower(a) + Lower(b)
  {
    if |a| == 0 {
      assert a + b == b;
    } else {
      assert (a + b)[1..] == a[1..] + b;
      LowerConcat(a[1..], b);
    }
  }

  lemma LowerSingle(c: char)
    ensures Lower([c]) == LowerChar(c)
  {
    assert [c][1..] == [];
    assert LowerChar(c) + [] == LowerChar(c);
  }

  lemma LowerAppend(a: string, c: char, b: string)
    ensures Lower(a + [c] + b) == Lower(a) + (LowerChar(c) + Lower(b))
  {
    var la, lc, lb := Lower(a), LowerChar(c), Lower(b);
    assert Lower(a + [c]) == la + lc by {
      LowerSingle(c);
      LowerConcat(a, [c]);
    }
    assert Lower(a + [c] + b) == Lower(a + [c]) + lb by {
      LowerConcat(a + [c], b);
    }
    assert (la + lc) + lb == la + (lc + lb);
  }

  /** Any character whose lower case holds no letter or digit acts only as a separator:
      replacing one such character by another never changes the cleaned text. */
  lemma SeparatorsInterchangeable(a: string, c: char, d: char, b: string)
    requires IsSeparator(c) && IsSeparator(d)
    ensures Clean(a + [c] + b) == Clean(a + [d] + b)
  {
    CleanIsNormalized(a + [c] + b);
    CleanIsNormalized(a + [d] + b);
    LowerAppend(a, c, b);
    LowerAppend(a, d, b);
    ScanThroughSeparator(Lower(a), LowerChar(c), Lower(b));
    ScanThroughSeparator(Lower(a), LowerChar(d), Lower(b));
  }

  /** Whichever sigma `str.lower()` picks for a capital sigma (final sigma at the end of a
      word, small sigma elsewhere), and the capital sigma the model keeps, the cleaned text
      is the same: all three only separate words. */
  lemma SigmaChoiceInvisible(a: string, b: string)
    ensures Clean(a + ['\U{3A3}'] + b) == Clean(a + ['\U{3C2}'] + b)
    ensures Clean(a + ['\U{3A3}'] + b) == Clean(a + ['\U{3C3}'] + b)
  {
    assert IsSeparator('\U{3A3}') by { assert ['\U{3A3}'][1..] == []; }
    assert IsSeparator('\U{3C2}') by { assert ['\U{3C2}'][1..] == []; }
    assert IsSeparator('\U{3C3}') by { assert ['\U{3C3}'][1..] == []; }
    SeparatorsInterchangeable(a, '\U{3A3}', '\U{3C2}', b);
    SeparatorsInterchangeable(a, '\U{3A3}', '\U{3C3}', b);
  }
}

=== FILE: drift.dfy ===
/** The heuristic drift detector comparing reference (training) rows with production
    (logged) rows: a drift score, its severity band, and side-by-side statistics. */
module Drift {
  import opened Seqs

  /** One row of a frame: the `sentiment` label and the `text_length` column. */
  datatype Row = Row(sentiment: string, textLength: int)

  /** A pandas frame. `NoColumns` is the bare `pd.DataFrame()` the loaders return on error or
      when the log is empty; indexing one of its columns raises `KeyError`. */
  datatype Frame = NoColumns | Table(rows: seq<Row>)

  function SumLengths(rows: seq<Row>): int {
    if |rows| == 0 then 0 else SumLengths(rows[..|rows| - 1]) + rows[|rows| - 1].textLength
  }

  /** `df['text_length'].mean()` */
  function MeanLength(rows: seq<Row>): (mean: real)
    requires |rows| > 0
    ensures mean * |rows| as real == SumLengths(rows) as real
  {
    QuotientTimesDivisor(SumLengths(rows) as real, |rows| as real);
    SumLengths(rows) as real / |rows| as real
  }

  lemma QuotientTimesDivisor(a: real, b: real)
    requires b != 0.0
    ensures (a / b) * b == a
  {
  }

  predicate IsPositive(r: Row) {
    r.sentiment == "positive"
  }

  /** `(df['sentiment'] == 'positive').mean()` */
  function PositiveRatio(rows: seq<Row>): (ratio: real)
    requires |rows| > 0
    ensures 0.0 <= ratio <= 1.0
    ensures ratio * |rows| as real == Count(rows, IsPositive) as real
  {
    FractionInUnitInterval(Count(rows, IsPositive), |rows|);
    QuotientTimesDivisor(Count(rows, IsPositive) as real, |rows| as real);
    Count(rows, IsPositive) as real / |rows| as real
  }

  function Abs(x: real): (a: real)
    ensures a >= 0.0 && (a == x || a == -x)
  {
    if x < 0.0 then -x else x
  }

  function Min(x: real, y: real): (m: real)
    ensures m <= x && m <= y && (m == x || m == y)
  {
    if x <= y then x else y
  }

  predicate NonNegativeLengths(f: Frame) {
    f.Table? ==> forall i :: 0 <= i < |f.rows| ==> f.rows[i].textLength >= 0
  }

  /** The floating-point computation stays finite: when both frames have columns, both have
      rows and the reference mean length is non-zero (otherwise pandas yields NaN or inf). */
  predicate Defined(reference: Frame, production: Frame) {
    reference.Table? && production.Table? ==>
      |reference.rows| > 0 && |production.rows| > 0 && MeanLength(reference.rows) != 0.0
  }

  /** `calculate_drift_score`: the mean of the relative text-length difference and the
      positive-ratio difference, capped at 1; 0.0 when a frame has no columns. */
  function DriftScore(reference: Frame, production: Frame): (score: real)
    requires Defined(reference, production)
    ensures score <= 1.0
    ensures (reference.NoColumns? || production.NoColumns?) ==> score == 0.0
  {
    if reference.NoColumns? || production.NoColumns? then 0.0
    else
      var refMean := MeanLength(reference.rows);
      var prodMean := MeanLength(production.rows);
      var lengthDiff := Abs(refMean - prodMean) / refMean;
      var sentimentDiff := Abs(PositiveRatio(reference.rows) - PositiveRatio(production.rows));
      Min((lengthDiff + sentimentDiff) / 2.0, 1.0)
  }

  lemma {:induction false} SumLengthsNonNegative(rows: seq<Row>)
    requires forall i :: 0 <= i < |rows| ==> rows[i].textLength >= 0
    ensures SumLengths(rows) >= 0
  {
    if |rows| > 0 {
      SumLengthsNonNegative(rows[..|rows| - 1]);
    }
  }

  lemma MeanLengthPositive(f: Frame)
    requires f.Table? && |f.rows| > 0 && NonNegativeLengths(f) && MeanLength(f.rows) != 0.0
    ensures MeanLength(f.rows) > 0.0
  {
    SumLengthsNonNegative(f.rows);
  }

  /** With non-negative lengths the score lies in [0, 1]. */
  lemma DriftScoreBounds(reference: Frame, production: Frame)
    requires Defined(reference, production) && NonNegativeLengths(reference)
    ensures 0.0 <= DriftScore(reference, production) <= 1.0
  {
    if reference.Table? && production.Table? {
      MeanLengthPositive(reference);
    }
  }

  /** The score is 0 exactly when the mean lengths and the positive ratios agree. */
  lemma DriftScoreZeroIff(reference: Frame, production: Frame)
    requires reference.Table? && production.Table?
    requires Defined(reference, production) && NonNegativeLengths(reference)
    ensures DriftScore(reference, production) == 0.0
        <==> (MeanLength(reference.rows) == MeanLength(production.rows)
              && PositiveRatio(reference.rows) == PositiveRatio(production.rows))
  {
    MeanLengthPositive(reference);
  }

  // ---------------------------------------------------------------------------
  // Severity bands.
  // ---------------------------------------------------------------------------

  datatype Level = NoDrift | LowDrift | ModerateDrift | HighDrift {

    /** The status text shown on the drift page. */
    function Text(): string {
      match this
      case NoDrift => "\U{2705} NO DRIFT DETECTED"
      case LowDrift => "\U{26A0}\U{FE0F} LOW DRIFT"
      case ModerateDrift => "\U{26A0}\U{FE0F} MODERATE DRIFT"
      case HighDrift => "\U{274C} HIGH DRIFT DETECTED"
    }

    function Color(): string {
      match this
      case NoDrift => "green"
      case LowDrift => "orange"
      case ModerateDrift => "orange"
      case HighDrift => "red"
    }

    /** Severity order of the bands. */
    function Rank(): nat {
      match this
      case NoDrift => 0
      case LowDrift => 1
      case ModerateDrift => 2
      case HighDrift => 3
    }
  }

  function Classify(score: real): Level {
    if score < 0.1 then NoDrift
    else if score < 0.3 then LowDrift
    else if score < 0.5 then ModerateDrift
    else HighDrift
  }

  /** `get_drift_status`: the (status text, colour) pair of the score's band. */
  function DriftStatus(score: real): (status: (string, string))
    ensures status == ("\U{2705} NO DRIFT DETECTED", "green") <==> score < 0.1
    ensures status == ("\U{274C} HIGH DRIFT DETECTED", "red") <==> score >= 0.5
    ensures status.1 == "green" <==> score < 0.1
    ensures status.1 == "orange" <==> 0.1 <= score < 0.5
    ensures status.1 == "red" <==> score >= 0.5
    ensures status.0 == "\U{26A0}\U{FE0F} LOW DRIFT" <==> 0.1 <= score < 0.3
    ensures status.0 == "\U{26A0}\U{FE0F} MODERATE DRIFT" <==> 0.3 <= score < 0.5
  {
    var level := Classify(score);
    (level.Text(), level.Color())
  }

  /** Severity never decreases as the score grows. */
  lemma ClassifyMonotone(a: real, b: real)
    requires a <= b
    ensures Classify(a).Rank() <= Classify(b).Rank()
  {
  }

  // ---------------------------------------------------------------------------
  // Comparison statistics.
  // ---------------------------------------------------------------------------

  datatype Summary = Summary(count: nat, textLengthMean: real, positiveRatio: real)

  datatype Difference = Difference(textLengthDiff: real, textLengthDiffPct: real, sentimentDiff: real)

  /** The statistics dictionary; `NoStats` is the `{}` returned on error. */
  datatype Comparison = NoStats | Stats(reference: Summary, production: Summary, difference: Difference)

  function Summarize(rows: seq<Row>): (s: Summary)
    requires |rows| > 0
    ensures s.count == |rows|
    ensures s.textLengthMean * |rows| as real == SumLengths(rows) as real
    ensures s.positiveRatio * |rows| as real == Count(rows, IsPositive) as real
    ensures 0.0 <= s.positiveRatio <= 1.0
  {
    Summary(|rows|, MeanLength(rows), PositiveRatio(rows))
  }

  /** `get_comparison_stats` without the standard deviations. Differences are in percent,
      except the absolute text-length difference. */
  function ComparisonStats(reference: Frame, production: Frame): (c: Comparison)
    requires Defined(reference, production)
    ensures c.NoStats? <==> reference.NoColumns? || production.NoColumns?
    ensures c.Stats? ==>
      && c.reference.count == |reference.rows|
      && c.production.count == |production.rows|
      && 0.0 <= c.reference.positiveRatio <= 1.0
      && 0.0 <= c.production.positiveRatio <= 1.0
      && c.difference.textLengthDiff >= 0.0
      && c.difference.textLengthDiff == Abs(c.reference.textLengthMean - c.production.textLengthMean)
      && c.difference.textLengthDiffPct * c.reference.textLengthMean == c.difference.textLengthDiff * 100.0
      && 0.0 <= c.difference.sentimentDiff <= 100.0
      && c.difference.sentimentDiff == Abs(c.reference.positiveRatio - c.production.positiveRatio) * 100.0
      && c.reference == Summarize(reference.rows)
      && c.production == Summarize(production.rows)
  {
    if reference.NoColumns? || production.NoColumns? then NoStats
    else
      var r := Summarize(reference.rows);
      var p := Summarize(production.rows);
      var lengthDiff := Abs(r.textLengthMean - p.textLengthMean);
      Stats(r, p, Difference(lengthDiff,
                             lengthDiff / r.textLengthMean * 100.0,
                             Abs(r.positiveRatio - p.positiveRatio) * 100.0))
  }

  /** The drift score is the capped mean of the two percentage differences, divided by 100. */
  lemma DriftScoreFromComparison(reference: Frame, production: Frame)
    requires Defined(reference, production)
    requires reference.Table? && production.Table?
    ensures var d := ComparisonStats(reference, production).difference;
            DriftScore(reference, production) == Min(1.0, (d.textLengthDiffPct + d.sentimentDiff) / 200.0)
  {
  }
}

=== FILE: logger.dfy ===
/** The logging helpers the API calls: they map a prediction onto a log row and delegate the
    read side to the prediction log. The process-wide `get_db_manager()` singleton becomes an
    explicit log value. */
module Logger {
  import opened Wrappers
  import PredictionLog

  /** `probabilities.get(key, 0.0)` */
  function ProbabilityOr0(probabilities: map<string, real>, key: string): real {
    if key in probabilities then probabilities[key] else 0.0
  }

  /** `log_prediction`: inserts one row built from the prediction (with `now` as its timestamp)
      and returns the new row's id. */
  function LogPrediction(log: PredictionLog.Log, now: string, text: string, sentiment: string,
                         confidence: real, probabilities: map<string, real>,
                         responseTime: Option<real>): (result: (PredictionLog.Log, nat))
    ensures |result.0.rows| == |log.rows| + 1
    ensures result.0.rows[..|log.rows|] == log.rows
    ensures var row := result.0.rows[|log.rows|];
            && row.id == result.1
            && row.entry.timestamp == now
            && row.entry.text == text
            && row.entry.sentiment == sentiment
            && row.entry.confidence == confidence
            && row.entry.responseTime == responseTime
            && row.entry.textLength == |text|
            && row.entry.probNegative == (if "negative" in probabilities then probabilities["negative"] else 0.0)
            && row.entry.probPositive == (if "positive" in probabilities then probabilities["positive"] else 0.0)
    ensures result.1 > log.highWater
    ensures forall i :: 0 <= i < |log.rows| ==> log.rows[i].id < result.1
  {
    var entry := PredictionLog.Entry(now, text, sentiment, confidence,
                                     ProbabilityOr0(probabilities, "negative"),
                                     ProbabilityOr0(probabilities, "positive"),
                                     |text|, responseTime);
    var result := PredictionLog.Insert(log, entry);
    assert result.0.rows[..|log.rows|] == log.rows;
    result
  }

  /** `get_prediction_stats`: the manager's statistics, unchanged. */
  function GetPredictionStats(log: PredictionLog.Log): (s: PredictionLog.Stats)
    ensures s == PredictionLog.GetStats(log)
    ensures s.totalPredictions == |log.rows|
    ensures s.positiveCount + s.negativeCount <= s.totalPredictions
    ensures |log.rows| == 0 ==> s == PredictionLog.ZeroStats
  {
    PredictionLog.GetStats(log)
  }

  /** `get_recent_predictions(n)`: the manager's answer, unchanged. */
  function GetRecentPredictions(log: PredictionLog.Log, n: int): (r: seq<PredictionLog.Row>)
    ensures r == PredictionLog.GetRecentPredictions(log, n)
    ensures PredictionLog.SortedDesc(r)
    ensures n > 0 ==> |r| == (if n < |log.rows| then n else |log.rows|)
    ensures multiset(r) <= multiset(log.rows)
    ensures forall x, y :: x in multiset(log.rows) - multiset(r) && y in r ==> PredictionLog.NewerOrSame(y, x)
  {
    PredictionLog.GetRecentPredictions(log, n)
  }

  /** `get_all_predictions()`: no limit, so every row, newest first. */
  function GetAllPredictions(log: PredictionLog.Log): (r: seq<PredictionLog.Row>)
    ensures multiset(r) == multiset(log.rows)
    ensures PredictionLog.SortedDesc(r)
  {
    PredictionLog.GetAllPredictions(log, None)
  }

  /** A logged prediction is counted once more by the statistics, under its own label. */
  lemma LoggedPredictionInStats(log: PredictionLog.Log, now: string, text: string, sentiment: string,
                                confidence: real, probabilities: map<string, real>,
                                responseTime: Option<real>)
    ensures var after := LogPrediction(log, now, text, sentiment, confidence, probabilities, responseTime).0;
            var s0 := GetPredictionStats(log);
            var s1 := GetPredictionStats(after);
            && s1.totalPredictions == s0.totalPredictions + 1
            && s1.positiveCount == s0.positiveCount + (if sentiment == "positive" then 1 else 0)
            && s1.negativeCount == s0.negativeCount + (if sentiment == "negative" then 1 else 0)
  {
    var entry := PredictionLog.Entry(now, text, sentiment, confidence,
                                     ProbabilityOr0(probabilities, "negative"),
                                     ProbabilityOr0(probabilities, "positive"),
                                     |text|, responseTime);
    PredictionLog.StatsAfterInsert(log, entry);
  }
}

=== FILE: model_loader.dfy ===
/** `ModelLoader` of the API: holds the fitted model and vectorizer and turns the classifier's
    raw output into the prediction record. The classifier itself is an opaque function. */
module ModelLoader {
  import opened Wrappers
  import ApiModels

  /** A JSON scalar from `metrics.json` or an attribute value. */
  datatype Value = Num(real) | Text(string) | Null

  /** A fitted model, known by its class name. */
  datatype Model = Model(className: string)

  /** A fitted vectorizer; `maxFeatures` is `None` when it has no such attribute. */
  datatype Vectorizer = Vectorizer(className: string, maxFeatures: Option<Value>)

  datatype Loader = Loader(model: Option<Model>, vectorizer: Option<Vectorizer>, modelInfo: map<string, Value>)

  datatype LoaderError = ModelFileNotFound | VectorizerFileNotFound | NotLoaded

  /** `ModelLoader()` before `load_model()`. */
  const NewLoader := Loader(None, None, map[])

  predicate IsLoaded(l: Loader) {
    l.model.Some? && l.vectorizer.Some?
  }

  /** `_load_model_info`: the parsed `metrics.json`, or zeroed metrics when there is none. */
  function LoadModelInfo(metricsFile: Option<map<string, Value>>): (info: map<string, Value>)
    ensures metricsFile.Some? ==> info == metricsFile.value
    ensures metricsFile.None? ==> info.Keys == {"accuracy", "precision", "recall", "f1_score"}
    ensures metricsFile.None? ==> forall k :: k in info ==> info[k] == Num(0.0)
  {
    match metricsFile
    case Some(m) => m
    case None => map["accuracy" := Num(0.0), "precision" := Num(0.0), "recall" := Num(0.0), "f1_score" := Num(0.0)]
  }

  /** `load_model`: the files' contents are parameters; a missing file raises
      `FileNotFoundError` (model file checked first) and leaves the loader as it was. */
  function LoadModel(l: Loader, modelFile: Option<Model>, vectorizerFile: Option<Vectorizer>,
                     metricsFile: Option<map<string, Value>>): (r: Result<Loader, LoaderError>)
    ensures modelFile.None? ==> r == Err(ModelFileNotFound)
    ensures modelFile.Some? && vectorizerFile.None? ==> r == Err(VectorizerFileNotFound)
    ensures r.Ok? <==> modelFile.Some? && vectorizerFile.Some?
    ensures r.Ok? ==> IsLoaded(r.value) && r.value.model == modelFile
                      && r.value.vectorizer == vectorizerFile
                      && r.value.modelInfo == LoadModelInfo(metricsFile)
  {
    if modelFile.None? then Err(ModelFileNotFound)
    else if vectorizerFile.None? then Err(VectorizerFileNotFound)
    else Ok(Loader(modelFile, vectorizerFile, LoadModelInfo(metricsFile)))
  }

  datatype ModelInfo = ModelInfo(
    modelType: string,
    vectorizerType: string,
    maxFeatures: Value,
    testAccuracy: Value,
    testF1Score: Value,
    testPrecision: Value,
    testRecall: Value,
    trainedDate: Value,
    modelVersion: string)

  const ModelVersion := "v1.0.0"

  /** `d.get(key, default)` */
  function Lookup(d: map<string, Value>, key: string, default: Value): Value {
    if key in d then d[key] else default
  }

  /** `get_model_info`: refuses before loading; missing metrics read as 0.0, a missing date
      as None, a missing `max_features` attribute as "N/A"; the version is fixed. */
  function GetModelInfo(l: Loader): (r: Result<ModelInfo, LoaderError>)
    ensures r.Ok? <==> IsLoaded(l)
    ensures r.Err? ==> r.error == NotLoaded
    ensures r.Ok? ==>
      && r.value.modelVersion == "v1.0.0"
      && r.value.modelType == l.model.value.className
      && r.value.vectorizerType == l.vectorizer.value.className
      && (l.vectorizer.value.maxFeatures.None? ==> r.value.maxFeatures == Text("N/A"))
      && (l.vectorizer.value.maxFeatures.Some? ==> r.value.maxFeatures == l.vectorizer.value.maxFeatures.value)
      && ("accuracy" !in l.modelInfo ==> r.value.testAccuracy == Num(0.0))
      && ("f1_score" !in l.modelInfo ==> r.value.testF1Score == Num(0.0))
      && ("precision" !in l.modelInfo ==> r.value.testPrecision == Num(0.0))
      && ("recall" !in l.modelInfo ==> r.value.testRecall == Num(0.0))
      && ("date" !in l.modelInfo ==> r.value.trainedDate == Null)
      && ("accuracy" in l.modelInfo ==> r.value.testAccuracy == l.modelInfo["accuracy"])
      && ("f1_score" in l.modelInfo ==> r.value.testF1Score == l.modelInfo["f1_score"])
      && ("precision" in l.modelInfo ==> r.value.testPrecision == l.modelInfo["precision"])
      && ("recall" in l.modelInfo ==> r.value.testRecall == l.modelInfo["recall"])
      && ("date" in l.modelInfo ==> r.value.trainedDate == l.modelInfo["date"])
  {
    if !IsLoaded(l) then Err(NotLoaded)
    else
      var info := l.modelInfo;
      Ok(ModelInfo(
        l.model.value.className,
        l.vectorizer.value.className,
        l.vectorizer.value.maxFeatures.GetOr(Text("N/A")),
        Lookup(info, "accuracy", Num(0.0)),
        Lookup(info, "f1_score", Num(0.0)),
        Lookup(info, "precision", Num(0.0)),
        Lookup(info, "recall", Num(0.0)),
        Lookup(info, "date", Null),
        ModelVersion))
  }

  /** What the fitted classifier returns for one text: `predict(...)[0]` and the two entries
      of `predict_proba(...)[0]` (index 0 negative, index 1 positive). */
  datatype RawOutput = RawOutput(predicted: string, p0: real, p1: real)

  datatype Prediction = Prediction(sentiment: string, confidence: real, probabilities: map<string, real>)

  /** `predict`: refuses before loading; otherwise the confidence is the probability of the
      predicted label, read at index 1 for "positive" and index 0 for any other label. */
  function Predict(l: Loader, text: string, classify: string -> RawOutput): (r: Result<Prediction, LoaderError>)
    ensures r.Ok? <==> IsLoaded(l)
    ensures r.Err? ==> r.error == NotLoaded
    ensures r.Ok? ==>
      var out := classify(text);
      && r.value.sentiment == out.predicted
      && (out.predicted == "positive" ==> r.value.confidence == out.p1)
      && (out.predicted != "positive" ==> r.value.confidence == out.p0)
      && r.value.probabilities.Keys == {"negative", "positive"}
      && r.value.probabilities["negative"] == out.p0
      && r.value.probabilities["positive"] == out.p1
      && r.value.confidence in r.value.probabilities.Values
  {
    if !IsLoaded(l) then Err(NotLoaded)
    else
      var out := classify(text);
      var confidence := if out.predicted == "positive" then out.p1 else out.p0;
      var probabilities := map["negative" := out.p0, "positive" := out.p1];
      assert probabilities["negative"] == out.p0;
      Ok(Prediction(out.predicted, confidence, probabilities))
  }

  /** A loader that was never loaded refuses both `get_model_info` and `predict`. */
  lemma FreshLoaderRefuses(text: string, classify: string -> RawOutput)
    ensures GetModelInfo(NewLoader) == Err(NotLoaded)
    ensures Predict(NewLoader, text, classify) == Err(NotLoaded)
  {
  }

  /** Once `load_model` succeeds, `predict` and `get_model_info` no longer refuse, and without
      a metrics file every reported metric is 0.0 and the date None. */
  lemma LoadedLoaderServes(l: Loader, modelFile: Option<Model>, vectorizerFile: Option<Vectorizer>,
                           metricsFile: Option<map<string, Value>>, text: string, classify: string -> RawOutput)
    requires LoadModel(l, modelFile, vectorizerFile, metricsFile).Ok?
    ensures var loaded := LoadModel(l, modelFile, vectorizerFile, metricsFile).value;
            && Predict(loaded, text, classify).Ok?
            && GetModelInfo(loaded).Ok?
            && (metricsFile.None? ==>
                  var info := GetModelInfo(loaded).value;
                  info.testAccuracy == Num(0.0) && info.testF1Score == Num(0.0)
                  && info.testPrecision == Num(0.0) && info.testRecall == Num(0.0)
                  && info.trainedDate == Null)
  {
  }

  /** When the classifier's probabilities lie in [0, 1], the prediction passes the response
      model's confidence bound whatever the label. */
  lemma PredictionPassesResponseCheck(l: Loader, text: string, classify: string -> RawOutput,
                                      textLength: int, timestamp: string)
    requires IsLoaded(l)
    requires 0.0 <= classify(text).p0 <= 1.0 && 0.0 <= classify(text).p1 <= 1.0
    ensures var p := Predict(l, text, classify).value;
            ApiModels.ValidateResponse(p.sentiment, p.confidence, p.probabilities, textLength, timestamp).Ok?
  {
  }
}

=== FILE: prediction_log.dfy ===
/** The SQLite `predictions` table behind the dashboard, as a state machine: an append-only
    sequence of rows in rowid order plus the AUTOINCREMENT counter. */
module PredictionLog {
  import opened Wrappers
  import opened Seqs
  import opened Timestamps

  /** The columns supplied on insert; `timestamp` is `datetime.now().isoformat()` taken
      by the caller, `responseTime` is the only nullable column. */
  datatype Entry = Entry(
    timestamp: string,
    text: string,
    sentiment: string,
    confidence: real,
    probNegative: real,
    probPositive: real,
    textLength: int,
    responseTime: Option<real>)

  /** A stored row: the INTEGER PRIMARY KEY AUTOINCREMENT id and the inserted columns. */
  datatype Row = Row(id: nat, entry: Entry)

  /** `rows` in insertion order; `highWater` is the table's `sqlite_sequence` value, the
      largest id ever handed out (DELETE does not reset it). */
  datatype Log = Log(rows: seq<Row>, highWater: nat)

  /** The freshly created table. */
  const EmptyLog := Log([], 0)

  function MaxId(rows: seq<Row>): (m: nat)
    ensures forall i :: 0 <= i < |rows| ==> rows[i].id <= m
    ensures |rows| == 0 ==> m == 0
    ensures |rows| > 0 ==> exists i :: 0 <= i < |rows| && rows[i].id == m
  {
    if |rows| == 0 then 0
    else var m := MaxId(rows[..|rows| - 1]);
         if rows[|rows| - 1].id > m then rows[|rows| - 1].id else m
  }

  /** Ids ascend along the rows and none exceeds the counter. */
  predicate Valid(log: Log) {
    && (forall i, j :: 0 <= i < j < |log.rows| ==> log.rows[i].id < log.rows[j].id)
    && (forall i :: 0 <= i < |log.rows| ==> log.rows[i].id <= log.highWater)
  }

  /** `insert_prediction`: appends one row and returns its id (`cursor.lastrowid`). Under
      AUTOINCREMENT the new id is one more than the larger of the counter and the largest id
      present, so it exceeds every id handed out before. */
  function Insert(log: Log, e: Entry): (result: (Log, nat))
    ensures result.0.rows == log.rows + [Row(result.1, e)]
    ensures result.1 > log.highWater
    ensures forall i :: 0 <= i < |log.rows| ==> log.rows[i].id < result.1
    ensures result.0.highWater == result.1
    ensures Valid(log) ==> Valid(result.0) && result.1 == log.highWater + 1
  {
    assert Valid(log) ==> MaxId(log.rows) <= log.highWater;
    var id := (if log.highWater >= MaxId(log.rows) then log.highWater else MaxId(log.rows)) + 1;
    (Log(log.rows + [Row(id, e)], id), id)
  }

  /** `clear_all_predictions`: `DELETE FROM predictions`; the AUTOINCREMENT counter survives. */
  function Clear(log: Log): (cleared: Log)
    ensures cleared.rows == []
    ensures Valid(cleared)
    ensures cleared.highWater == log.highWater
  {
    Log([], log.highWater)
  }

  // ---------------------------------------------------------------------------
  // Ids over a history of inserts and clears.
  // ---------------------------------------------------------------------------

  datatype Command = InsertCommand(entry: Entry) | ClearCommand

  /** Runs `commands` from `log`, collecting the ids the inserts return. */
  function Replay(log: Log, commands: seq<Command>): (Log, seq<nat>)
    decreases |commands|
  {
    if |commands| == 0 then (log, [])
    else match commands[0]
      case InsertCommand(e) =>
        var (next, id) := Insert(log, e);
        var (final, ids) := Replay(next, commands[1..]);
        (final, [id] + ids)
      case ClearCommand =>
        Replay(Clear(log), commands[1..])
  }

  /** Every id handed out is larger than all ids handed out earlier, clears notwithstanding,
      and larger than every id present when the history started. */
  lemma {:induction false} ReplayIdsIncrease(log: Log, commands: seq<Command>)
    requires Valid(log)
    decreases |commands|
    ensures var (final, ids) := Replay(log, commands);
            && (forall i, j :: 0 <= i < j < |ids| ==> ids[i] < ids[j])
            && (forall i :: 0 <= i < |ids| ==> ids[i] > log.highWater)
            && (forall i, k :: 0 <= i < |ids| && 0 <= k < |log.rows| ==> ids[i] > log.rows[k].id)
            && final.highWater >= log.highWater
  {
    if |commands| > 0 {
      match commands[0]
      case InsertCommand(e) =>
        var (next, id) := Insert(log, e);
        ReplayIdsIncrease(next, commands[1..]);
      case ClearCommand =>
        ReplayIdsIncrease(Clear(log), commands[1..]);
        var (final, ids) := Replay(Clear(log), commands[1..]);
        forall i, k | 0 <= i < |ids| && 0 <= k < |log.rows|
          ensures ids[i] > log.rows[k].id
        {
          assert ids[i] > log.highWater;
        }
    }
  }

  // ---------------------------------------------------------------------------
  // Queries.
  // ---------------------------------------------------------------------------

  /** `x` is at least as recent as `y` (timestamps compared as TEXT). */
  predicate NewerOrSame(x: Row, y: Row) {
    LexLe(y.entry.timestamp, x.entry.timestamp)
  }

  /** `ORDER BY timestamp DESC` */
  predicate SortedDesc(s: seq<Row>) {
    forall i, j :: 0 <= i < j < |s| ==> NewerOrSame(s[i], s[j])
  }

  /** A row at least as recent as the head of a descending list may go in front of it. */
  lemma PrependNewest(x: Row, s: seq<Row>)
    requires SortedDesc(s) && |s| > 0 && NewerOrSame(x, s[0])
    ensures SortedDesc([x] + s)
  {
    forall j | 0 <= j < |s| ensures NewerOrSame(x, s[j]) {
      if j > 0 {
        LexLeTransitive(s[j].entry.timestamp, s[0].entry.timestamp, x.entry.timestamp);
      }
    }
  }

  /** The head of a descending list stays in front when an older row goes in behind it. */
  lemma KeepHead(x: Row, s: seq<Row>, rest: seq<Row>)
    requires SortedDesc(s) && |s| > 0 && !NewerOrSame(x, s[0])
    requires SortedDesc(rest) && multiset(rest) == multiset(s[1..]) + multiset{x}
    ensures SortedDesc([s[0]] + rest)
    ensures multiset([s[0]] + rest) == multiset(s) + multiset{x}
  {
    LexLeTotal(x.entry.timestamp, s[0].entry.timestamp);
    forall z | z in rest ensures NewerOrSame(s[0], z) {
      assert z in multiset(rest);
      if z != x {
        assert z in multiset(s[1..]);
        var j :| 1 <= j < |s| && s[j] == z by {
          assert z in s[1..];
        }
      }
    }
    assert s == [s[0]] + s[1..];
  }

  function InsertDesc(x: Row, s: seq<Row>): (r: seq<Row>)
    requires SortedDesc(s)
    ensures SortedDesc(r)
    ensures multiset(r) == multiset(s) + multiset{x}
  {
    if |s| == 0 then [x]
    else if NewerOrSame(x, s[0]) then
      PrependNewest(x, s);
      [x] + s
    else
      var rest := InsertDesc(x, s[1..]);
      KeepHead(x, s, rest);
      [s[0]] + rest
  }

  /** The rows of `s`, most recent first. SQLite leaves the order of equal timestamps open;
      the model picks one. */
  function SortDesc(s: seq<Row>): (r: seq<Row>)
    ensures SortedDesc(r)
    ensures multiset(r) == multiset(s)
    ensures |r| == |s|
  {
    if |s| == 0 then []
    else
      assert s == [s[0]] + s[1..];
      var r := InsertDesc(s[0], SortDesc(s[1..]));
      assert |multiset(r)| == |multiset(s)|;
      r
  }

  /** Taking a prefix of a descending list takes the most recent rows. */
  lemma PrefixIsMostRecent(sorted: seq<Row>, k: nat)
    requires SortedDesc(sorted) && k <= |sorted|
    ensures SortedDesc(sorted[..k])
    ensures multiset(sorted[..k]) <= multiset(sorted)
    ensures forall x, y :: x in multiset(sorted) - multiset(sorted[..k]) && y in sorted[..k]
                           ==> NewerOrSame(y, x)
  {
    assert sorted == sorted[..k] + sorted[k..];
    forall x, y | x in multiset(sorted) - multiset(sorted[..k]) && y in sorted[..k]
      ensures NewerOrSame(y, x)
    {
      assert x in multiset(sorted[k..]);
      assert x in sorted[k..];
      var j :| k <= j < |sorted| && sorted[j] == x;
      var i :| 0 <= i < k && sorted[i] == y;
    }
  }

  /** How many rows `LIMIT` lets through: `if limit:` skips `None` and 0, and SQLite reads a
      negative LIMIT as no bound, so only a positive limit truncates. */
  function RowsReturned(limit: Option<int>, available: nat): nat {
    if limit.Some? && 0 < limit.value < available then limit.value else available
  }

  /** `get_all_predictions(limit)`: the `RowsReturned` most recent rows, newest first. */
  function GetAllPredictions(log: Log, limit: Option<int>): (r: seq<Row>)
    ensures SortedDesc(r)
    ensures limit.Some? && limit.value > 0 ==>
              |r| == (if limit.value < |log.rows| then limit.value else |log.rows|)
    ensures limit.None? || limit.value <= 0 ==> multiset(r) == multiset(log.rows)
    ensures multiset(r) <= multiset(log.rows)
    ensures forall x, y :: x in multiset(log.rows) - multiset(r) && y in r ==> NewerOrSame(y, x)
  {
    var sorted := SortDesc(log.rows);
    var k := RowsReturned(limit, |log.rows|);
    PrefixIsMostRecent(sorted, k);
    assert sorted[..|sorted|] == sorted;
    sorted[..k]
  }

  /** `get_recent_predictions(n)`: the `n` most recent rows; `n == 0`, being falsy, and a
      negative `n` return every row. */
  function GetRecentPredictions(log: Log, n: int): (r: seq<Row>)
    ensures SortedDesc(r)
    ensures n > 0 ==> |r| == (if n < |log.rows| then n else |log.rows|)
    ensures n <= 0 ==> multiset(r) == multiset(log.rows)
    ensures multiset(r) <= multiset(log.rows)
    ensures forall x, y :: x in multiset(log.rows) - multiset(r) && y in r ==> NewerOrSame(y, x)
  {
    GetAllPredictions(log, Some(n))
  }

  /** Default of `get_recent_predictions`. */
  const DefaultRecent := 20

  /** Called without an argument, `get_recent_predictions` returns the 20 newest rows, or
      every row when there are fewer. */
  lemma DefaultRecentCount(log: Log)
    ensures |GetRecentPredictions(log, DefaultRecent)| == (if |log.rows| < 20 then |log.rows| else 20)
  {
  }

  predicate NoQuote(s: string) {
    forall i :: 0 <= i < |s| ==> s[i] != '\''
  }

  /** The `WHERE DATE(timestamp) >= start_date` test (a NULL date fails it). */
  predicate OnOrAfter(x: Row, startDate: string) {
    var d := DatePart(x.entry.timestamp);
    d.Some? && LexLe(startDate, d.value)
  }

  /** `get_predictions_by_date(start_date)`: rows dated on or after `start_date`, newest first;
      with no (or an empty) `start_date`, all rows. */
  function GetPredictionsByDate(log: Log, startDate: Option<string>): (r: seq<Row>)
    requires startDate.Some? ==> NoQuote(startDate.value)
    ensures SortedDesc(r)
    ensures startDate.None? || startDate.value == [] ==> multiset(r) == multiset(log.rows)
    ensures startDate.Some? && startDate.value != [] ==>
              forall x :: multiset(r)[x] == if OnOrAfter(x, startDate.value) then multiset(log.rows)[x] else 0
  {
    if startDate.None? || startDate.value == [] then SortDesc(log.rows)
    else SortDesc(Filter(log.rows, x => OnOrAfter(x, startDate.value)))
  }

  /** A later start date never admits more rows. */
  lemma LaterStartDateKeepsFewer(log: Log, early: string, late: string)
    requires early != [] && NoQuote(early) && NoQuote(late) && LexLe(early, late)
    ensures multiset(GetPredictionsByDate(log, Some(late))) <= multiset(GetPredictionsByDate(log, Some(early)))
  {
    var a := GetPredictionsByDate(log, Some(early));
    var b := GetPredictionsByDate(log, Some(late));
    if late != [] {
      forall x ensures multiset(b)[x] <= multiset(a)[x] {
        if OnOrAfter(x, late) {
          LexLeTransitive(early, late, DatePart(x.entry.timestamp).value);
        }
      }
    }
  }

  /** Without a start date the date query is the unlimited listing. */
  lemma NoStartDateListsAll(log: Log)
    ensures GetPredictionsByDate(log, None) == GetAllPredictions(log, None)
    ensures GetPredictionsByDate(log, Some([])) == GetAllPredictions(log, None)
  {
  }

  // ---------------------------------------------------------------------------
  // Aggregates.
  // ---------------------------------------------------------------------------

  datatype Stats = Stats(
    totalPredictions: nat,
    positiveCount: nat,
    negativeCount: nat,
    positiveRatio: real,
    negativeRatio: real,
    avgConfidence: real,
    avgResponseTime: real,
    avgTextLength: real)

  const ZeroStats := Stats(0, 0, 0, 0.0, 0.0, 0.0, 0.0, 0.0)

  predicate IsPositive(r: Row) { r.entry.sentiment == "positive" }

  predicate IsNegative(r: Row) { r.entry.sentiment == "negative" }

  predicate HasResponseTime(r: Row) { r.entry.responseTime.Some? }

  function SumConfidence(rows: seq<Row>): real {
    if |rows| == 0 then 0.0 else SumConfidence(rows[..|rows| - 1]) + rows[|rows| - 1].entry.confidence
  }

  function SumTextLength(rows: seq<Row>): int {
    if |rows| == 0 then 0 else SumTextLength(rows[..|rows| - 1]) + rows[|rows| - 1].entry.textLength
  }

  /** Sum of the non-NULL response times. */
  function SumResponseTime(rows: seq<Row>): real {
    if |rows| == 0 then 0.0
    else SumResponseTime(rows[..|rows| - 1]) + rows[|rows| - 1].entry.responseTime.GetOr(0.0)
  }

  /** SQL `AVG` over `n` non-NULL values summing to `sum`, followed by the source's
      `x if x else 0.0` (AVG of no values is NULL). */
  function AvgOrZero(sum: real, n: nat): (avg: real)
    ensures n == 0 ==> avg == 0.0
    ensures n > 0 ==> avg * n as real == sum
  {
    if n == 0 then 0.0 else sum / n as real
  }

  /** The three `AVG` columns of `get_stats`, each read as 0.0 when NULL. */
  datatype Averages = Averages(confidence: real, responseTime: real, textLength: real)

  /** The second query of `get_stats`: confidence and text length are averaged over every
      row, the response time over the rows that have one (AVG skips NULLs). */
  function AveragesOf(rows: seq<Row>): (a: Averages)
    ensures |rows| == 0 ==> a == Averages(0.0, 0.0, 0.0)
    ensures a.confidence * |rows| as real == SumConfidence(rows)
    ensures a.textLength * |rows| as real == SumTextLength(rows) as real
    ensures Count(rows, HasResponseTime) > 0 ==>
              a.responseTime * Count(rows, HasResponseTime) as real == SumResponseTime(rows)
    ensures Count(rows, HasResponseTime) == 0 ==> a.responseTime == 0.0
  {
    Averages(AvgOrZero(SumConfidence(rows), |rows|),
             AvgOrZero(SumResponseTime(rows), Count(rows, HasResponseTime)),
             AvgOrZero(SumTextLength(rows) as real, |rows|))
  }

  predicate IsOtherLabel(r: Row) { !IsPositive(r) && !IsNegative(r) }

  lemma LabelCountsBounded(rows: seq<Row>)
    ensures Count(rows, IsPositive) + Count(rows, IsNegative) + Count(rows, IsOtherLabel) == |rows|
  {
    CountSplit(rows, IsPositive, IsNegative, IsOtherLabel);
  }

  lemma RatioSum(a: nat, b: nat, total: nat)
    requires a + b <= total && total > 0
    ensures 0.0 <= a as real / total as real && 0.0 <= b as real / total as real
    ensures a as real / total as real + b as real / total as real <= 1.0
  {
    assert a as real / total as real + b as real / total as real == (a + b) as real / total as real;
  }

  /** `get_stats`. */
  function GetStats(log: Log): (s: Stats)
    ensures s.totalPredictions == |log.rows|
    ensures |log.rows| == 0 ==> s == ZeroStats
    ensures s.positiveCount == Count(log.rows, IsPositive)
    ensures s.negativeCount == Count(log.rows, IsNegative)
    ensures s.positiveCount + s.negativeCount <= s.totalPredictions
    ensures s.totalPredictions > 0 ==>
              && s.positiveRatio == s.positiveCount as real / s.totalPredictions as real
              && s.negativeRatio == s.negativeCount as real / s.totalPredictions as real
    ensures 0.0 <= s.positiveRatio && 0.0 <= s.negativeRatio && s.positiveRatio + s.negativeRatio <= 1.0
    ensures Count(log.rows, HasResponseTime) == 0 ==> s.avgResponseTime == 0.0
    ensures var a := AveragesOf(log.rows);
            s.avgConfidence == a.confidence && s.avgResponseTime == a.responseTime
            && s.avgTextLength == a.textLength
  {
    var rows := log.rows;
    var total := |rows|;
    if total == 0 then ZeroStats
    else
      var positives := Count(rows, IsPositive);
      var negatives := Count(rows, IsNegative);
      LabelCountsBounded(rows);
      RatioSum(positives, negatives, total);
      var avgs := AveragesOf(rows);
      Stats(total, positives, negatives,
            positives as real / total as real,
            negatives as real / total as real,
            avgs.confidence, avgs.responseTime, avgs.textLength)
  }

  /** Rows labelled neither "positive" nor "negative" count toward the total only. */
  lemma OtherLabelsCountOnlyInTotal(log: Log)
    ensures var s := GetStats(log);
            s.totalPredictions == s.positiveCount + s.negativeCount + Count(log.rows, IsOtherLabel)
  {
    LabelCountsBounded(log.rows);
  }

  /** `get_prediction_count`: `SELECT COUNT(*)`, the same total `get_stats` reports. */
  function GetPredictionCount(log: Log): (n: nat)
    ensures n == GetStats(log).totalPredictions
  {
    |log.rows|
  }

  /** The table `_init_database` creates is valid, reports zeroed statistics and no rows, and
      hands out id 1 on its first insert. */
  lemma FreshTable(e: Entry)
    ensures Valid(EmptyLog) && GetStats(EmptyLog) == ZeroStats
    ensures GetPredictionCount(EmptyLog) == 0
    ensures Insert(EmptyLog, e).1 == 1
  {
  }

  /** Each insert adds one to the count; a clear brings it to zero. */
  lemma CountAfterInsertAndClear(log: Log, e: Entry)
    ensures GetPredictionCount(Insert(log, e).0) == GetPredictionCount(log) + 1
    ensures GetPredictionCount(Clear(log)) == 0
  {
  }

  /** How one insert moves the aggregates: the total grows by one, the label counts by the
      new row's label, and a row without a response time leaves that average untouched. */
  lemma StatsAfterInsert(log: Log, e: Entry)
    ensures var before := GetStats(log);
            var after := GetStats(Insert(log, e).0);
            && after.totalPredictions == before.totalPredictions + 1
            && after.positiveCount == before.positiveCount + (if e.sentiment == "positive" then 1 else 0)
            && after.negativeCount == before.negativeCount + (if e.sentiment == "negative" then 1 else 0)
            && (e.responseTime.None? ==>
                  after.avgResponseTime == before.avgResponseTime)
  {
    var (next, id) := Insert(log, e);
    var row := Row(id, e);
    assert next.rows == log.rows + [row];
    CountAppend(log.rows, row, IsPositive);
    CountAppend(log.rows, row, IsNegative);
    CountAppend(log.rows, row, HasResponseTime);
    assert next.rows[..|log.rows|] == log.rows;
  }
}

=== FILE: seqs.dfy ===
/** Counting over sequences, shared by the drift detector and the prediction log. */
module Seqs {

  /** Number of elements of `s` satisfying `p` (a `SUM(CASE ...)` / boolean-mask `sum()`). */
  function Count<T>(s: seq<T>, p: T -> bool): (n: nat)
    ensures n <= |s|
    ensures n == 0 <== (forall i :: 0 <= i < |s| ==> !p(s[i]))
    ensures n == |s| <== (forall i :: 0 <= i < |s| ==> p(s[i]))
  {
    if |s| == 0 then 0
    else Count(s[..|s| - 1], p) + (if p(s[|s| - 1]) then 1 else 0)
  }

  /** A part of a non-empty whole, as a fraction, lies in [0, 1]. */
  lemma FractionInUnitInterval(part: nat, whole: nat)
    requires part <= whole && whole > 0
    ensures 0.0 <= part as real / whole as real <= 1.0
  {
    assert (part as real / whole as real) * whole as real == part as real;
  }

  /** Appending one element adds one to the count exactly when it satisfies `p`. */
  lemma CountAppend<T>(s: seq<T>, x: T, p: T -> bool)
    ensures Count(s + [x], p) == Count(s, p) + (if p(x) then 1 else 0)
  {
    assert (s + [x])[..|s|] == s;
  }

  /** Two exclusive classes and the elements in neither together make up the whole sequence. */
  lemma {:induction false} CountSplit<T>(s: seq<T>, p: T -> bool, q: T -> bool, other: T -> bool)
    requires forall x :: p(x) ==> !q(x)
    requires forall x :: other(x) <==> !p(x) && !q(x)
    ensures Count(s, p) + Count(s, q) + Count(s, other) == |s|
  {
    if |s| > 0 {
      CountSplit(s[..|s| - 1], p, q, other);
    }
  }

  /** The elements of `s` satisfying `p`, in order (a SQL `WHERE`). */
  function Filter<T(!new)>(s: seq<T>, p: T -> bool): (r: seq<T>)
    ensures |r| <= |s|
    ensures forall x :: multiset(r)[x] == if p(x) then multiset(s)[x] else 0
  {
    if |s| == 0 then []
    else
      var last := s[|s| - 1];
      assert s == s[..|s| - 1] + [last];
      Filter(s[..|s| - 1], p) + (if p(last) then [last] else [])
  }
}

=== FILE: timestamps.dfy ===
/** ISO-8601 timestamps as stored in the prediction log: TEXT compared with SQLite's BINARY
    collation (code-point order), and SQLite's `DATE(...)` on them. */
module Timestamps {
  import opened Wrappers

  /** `a <= b` as SQLite compares TEXT values (and Python compares `str`). */
  predicate LexLe(a: string, b: string) {
    if |a| == 0 then true
    else if |b| == 0 then false
    else if a[0] != b[0] then a[0] < b[0]
    else LexLe(a[1..], b[1..])
  }

  lemma {:induction false} LexLeTotal(a: string, b: string)
    ensures LexLe(a, b) || LexLe(b, a)
  {
    if |a| > 0 && |b| > 0 && a[0] == b[0] {
      LexLeTotal(a[1..], b[1..]);
    }
  }

  lemma {:induction false} LexLeTransitive(a: string, b: string, c: string)
    requires LexLe(a, b) && LexLe(b, c)
    ensures LexLe(a, c)
  {
    if |a| > 0 && |b| > 0 && |c| > 0 && a[0] == b[0] && b[0] == c[0] {
      LexLeTransitive(a[1..], b[1..], c[1..]);
    }
  }

  lemma {:induction false} LexLeAntisymmetric(a: string, b: string)
    requires LexLe(a, b) && LexLe(b, a)
    ensures a == b
  {
    if |a| > 0 && |b| > 0 {
      LexLeAntisymmetric(a[1..], b[1..]);
      assert a == [a[0]] + a[1..];
      assert b == [b[0]] + b[1..];
    }
  }

  predicate IsDigit(c: char) {
    '0' <= c <= '9'
  }

  /** The `YYYY-MM-DD` shape that starts every `datetime.isoformat()` string. */
  predicate HasDatePrefix(ts: string) {
    && |ts| >= 10
    && IsDigit(ts[0]) && IsDigit(ts[1]) && IsDigit(ts[2]) && IsDigit(ts[3])
    && ts[4] == '-' && IsDigit(ts[5]) && IsDigit(ts[6])
    && ts[7] == '-' && IsDigit(ts[8]) && IsDigit(ts[9])
  }

  /** SQLite's `DATE(ts)`: the calendar date of an ISO timestamp, NULL for other text. */
  function DatePart(ts: string): (d: Option<string>)
    ensures d.Some? <==> HasDatePrefix(ts)
    ensures d.Some? ==> d.value == ts[..10]
  {
    if HasDatePrefix(ts) then Some(ts[..10]) else None
  }
}

=== FILE: whitespace.dfy ===
/** Python's notion of whitespace (`str.isspace`, the `\s` class of `re` on `str`) and `str.strip()`. */
module Whitespace {

  /** The characters Python treats as whitespace: the ASCII controls 9-13 and 28-31, the space,
      NEL, NO-BREAK SPACE and the Unicode space separators and line/paragraph separators. */
  predicate IsSpace(c: char) {
    || ('\t' <= c <= '\r')
    || ('\U{1C}' <= c <= '\U{1F}')
    || c == ' '
    || c == '\U{85}'
    || c == '\U{A0}'
    || c == '\U{1680}'
    || ('\U{2000}' <= c <= '\U{200A}')
    || c == '\U{2028}'
    || c == '\U{2029}'
    || c == '\U{202F}'
    || c == '\U{205F}'
    || c == '\U{3000}'
  }

  /** True when every character of `s` is whitespace (so `not s.strip()` holds). */
  predicate AllSpace(s: string) {
    forall i :: 0 <= i < |s| ==> IsSpace(s[i])
  }

  /** `s.lstrip()`: the suffix left after dropping leading whitespace. */
  function StripLeft(s: string): (r: string)
    ensures |r| <= |s| && r == s[|s| - |r|..]
    ensures AllSpace(s[..|s| - |r|])
    ensures |r| > 0 ==> !IsSpace(r[0])
  {
    if |s| > 0 && IsSpace(s[0]) then StripLeft(s[1..]) else s
  }

  /** `s.rstrip()`: the prefix left after dropping trailing whitespace. */
  function StripRight(s: string): (r: string)
    ensures |r| <= |s| && r == s[..|r|]
    ensures AllSpace(s[|r|..])
    ensures |r| > 0 ==> !IsSpace(r[|r| - 1])
  {
    if |s| > 0 && IsSpace(s[|s| - 1]) then StripRight(s[..|s| - 1]) else s
  }

  /** `r` sits in `s` at offset `i` with nothing but whitespace before and after it. */
  predicate TrimmedAt(s: string, i: int, r: string) {
    0 <= i && i + |r| <= |s| && r == s[i..i + |r|] && AllSpace(s[..i]) && AllSpace(s[i + |r|..])
  }

  /** `s.strip()`: `s` without leading and trailing whitespace. */
  function Strip(s: string): (r: string)
    ensures |r| <= |s|
    ensures |r| > 0 ==> !IsSpace(r[0]) && !IsSpace(r[|r| - 1])
    ensures |r| == 0 <==> AllSpace(s)
    ensures exists i :: TrimmedAt(s, i, r)
  {
    var l := StripLeft(s);
    var r := StripRight(l);
    StripCuts(s, l, r);
    assert TrimmedAt(s, |s| - |l|, r);
    r
  }

  /** Where `strip()` cuts: a whitespace prefix of `s` is dropped to give `l`, then a
      whitespace suffix of `l` is dropped to give `r`; `r` is the infix between them, and it
      is empty exactly when `s` is all whitespace. */
  lemma StripCuts(s: string, l: string, r: string)
    requires |l| <= |s| && l == s[|s| - |l|..] && AllSpace(s[..|s| - |l|])
    requires |l| > 0 ==> !IsSpace(l[0])
    requires |r| <= |l| && r == l[..|r|] && AllSpace(l[|r|..])
    requires |r| > 0 ==> !IsSpace(r[|r| - 1])
    ensures |r| <= |s|
    ensures |r| > 0 ==> !IsSpace(r[0]) && !IsSpace(r[|r| - 1])
    ensures |r| == 0 <==> AllSpace(s)
    ensures TrimmedAt(s, |s| - |l|, r)
  {
    var i := |s| - |l|;
    SplitSuffix(s, i, l, r);
    if |r| > 0 {
      assert r[0] == l[0];
    }
    if |r| == 0 {
      assert s == s[..i] + l[|r|..];
    }
    assert TrimmedAt(s, i, r);
  }

  /** A prefix `r` of the suffix `l` of `s` starting at `i` is the slice `s[i..i + |r|]`, and
      what follows `r` in `l` is what follows it in `s`. */
  lemma SplitSuffix(s: string, i: nat, l: string, r: string)
    requires i <= |s| && l == s[i..] && |r| <= |l| && r == l[..|r|]
    ensures r == s[i..i + |r|] && l[|r|..] == s[i + |r|..]
  {
  }

  /** A string without leading or trailing whitespace is its own `strip()`. */
  lemma StripOfStripped(s: string)
    requires |s| > 0 ==> !IsSpace(s[0]) && !IsSpace(s[|s| - 1])
    ensures Strip(s) == s
  {
  }
}

=== FILE: wrappers.dfy ===
/** Option and Result types standing in for Python's `None` and for raised exceptions. */
module Wrappers {

  /** A value that may be absent (`None` in Python, NULL in SQL). */
  datatype Option<+T> = None | Some(value: T) {

    /** The wrapped value, or `default` when there is none. */
    function GetOr(default: T): T {
      match this
      case Some(v) => v
      case None => default
    }
  }

  /** Either a value or the error a Python function would have raised. */
  datatype Result<+R, +E> = Ok(value: R) | Err(error: E)
}
